=== FILE: README.md ===
# pixelflut, modelled in Dafny

A model of the core of the pixelflut server (`pixelflut/pixelflut.py`): a shared canvas
that network clients paint on, one line-based command at a time, with the command
vocabulary supplied by a hot-reloaded "brain" script that registers event handlers.

The model is functional: immutable datatypes and pure transition functions.

- `Framebuffer` (`framebuffer.dfy`) — the pygame surface as a physical grid of RGB
  colours, magnified by the zoom factor. It covers `get_size`, `get_pixel`,
  `_set_scaled_pixel`, `set_pixel` with its alpha blend, and `clear`.
- `Events` (`events.dfy`) — the event table: `on` and `fire`, and the effect of running
  the brain's registrations in order.
- `Text` (`text.dfy`) — the string operations the protocol loop relies on:
  `strip`, `split`, `upper`, and `readline(limit)` on a buffered stream, with the
  stream read as a Python 2 byte file (see "Left out" for the Python 3 differences).
- `Sessions` (`sessions.dfy`) — one `Client`: `send`, `disconnect`, the 10-line bursts of
  `serve`, the `while self.socket` loop and the `CONNECT`/`DISCONNECT` bookkeeping.
- `Registry` (`registry.dfy`) — the accept loop's `clients` dictionary, keyed by IP.
- `Brain` (`brain.dfy`) — the once-a-second reload poll: `UNLOAD`, clear, exec, `LOAD`.
- `SizeArg` (`size_arg.dfy`) — the `--size` argument check `^(\d+)x(\d+)$`.
- `Results` (`results.dfy`) — `Option` and `Result`.
- `Seqs` (`seqs.dfy`) — two general facts about sequences that the proofs use.

Inputs the program gets from the outside are parameters:
- the bytes a client sends are a string;
- the brain's modification times are integers;
- what executing the brain does is a `Script`: its registrations, in order, and whether it
  then raises;
- a handler is an identity plus whether calling it raises.

A pygame surface is modelled with three assumptions about the drawing library, whose code
is not part of this model:
- writes off the surface are clipped;
- reads off the surface fail (`OutOfRange`);
- a colour with a channel outside 0..255 is rejected (`InvalidColor`) before anything is
  drawn.

Some of what the code does is easy to misread, and the model follows the code:
- `fire` (pixelflut/pixelflut.py:165-174) returns `True` only when a handler is registered
  and returns normally. A handler that raises is logged and `fire` yields `None`, so a
  raising command handler disconnects its client.
- At end of stream `readline` returns `''` (pixelflut/pixelflut.py:62-69), which only
  breaks the burst. The `while self.socket` loop keeps going, so the session is never
  torn down (`Sessions.IdleAtEndOfStream`).
- A reconnect from a known IP reuses the same `Client` record
  (pixelflut/pixelflut.py:120-127). That record keeps the address, and so the port, of
  the first connection (`Registry.KeyedByIp`).
- The brain is compiled once, before the poll loop (pixelflut/pixelflut.py:284-285). A
  reload therefore re-executes the code read at start-up (`Brain.ReloadForgetsHistory`).
- The table is cleared before `exec` (pixelflut/pixelflut.py:291-295), so a brain that
  raises leaves the table holding whatever it registered before the exception.
- The blend divides with Python 2's flooring `/` (pixelflut/pixelflut.py:205): black
  blended under white at alpha 128 gives `(0*127 + 255*128) / 255`, which is exactly 128
  (`Framebuffer.BlendExamples`).

## Model

| member | source | states |
|---|---|---|
| `Text.Strip` | pixelflut/pixelflut.py:67 | the stripped line is a slice of the raw read with only whitespace before and after it; it is empty exactly when the read was all whitespace, and otherwise starts and ends with non-whitespace |
| `Text.StripPadded` | pixelflut/pixelflut.py:67 | whatever whitespace surrounds a text that starts and ends with non-whitespace, stripping gives back exactly that text |
| `Text.ReadLine` | pixelflut/pixelflut.py:67 | a bounded read plus the unread rest is the whole input; the read has at most `limit` bytes and no newline before its end; it ends with a newline, hits the limit, or exhausts the input; it is empty only at end of input |
| `Text.Split` | pixelflut/pixelflut.py:70 | splitting yields non-empty whitespace-free words, and yields none exactly when the line is all whitespace |
| `Text.SplitJoin` | pixelflut/pixelflut.py:70-71 | splitting words joined by single spaces gives back the same words |
| `Text.SplitLayout` | pixelflut/pixelflut.py:70 | words separated by any non-empty whitespace runs, with any whitespace before and after, split into exactly those words |
| `Text.SplitStrip` | pixelflut/pixelflut.py:67-70 | splitting the stripped line gives the same words as splitting the raw read |
| `Text.Upper` | pixelflut/pixelflut.py:72 | upper-casing keeps the length and maps each byte to its ASCII upper case |
| `Events.On` | pixelflut/pixelflut.py:158-163 | after `on`, the name is bound to the new handler, the key set grows by that name only, and every other name keeps its handler |
| `Events.LastRegistrationWins` | pixelflut/pixelflut.py:158-163 | registering twice under one name leaves only the second handler to run |
| `Events.OnLeavesOtherNames` | pixelflut/pixelflut.py:158-163 | registering one name does not change what firing a different name does |
| `Events.Fire` | pixelflut/pixelflut.py:165-174 | a handler runs exactly when one is registered under the name, and it is that handler; `fire` is truthy exactly when one is registered and does not raise |
| `Events.RegisterAll` | pixelflut/pixelflut.py:291-293 | running the brain's registrations binds exactly the names it registers, on top of the existing ones |
| `Events.RegisterAllLastWins` | pixelflut/pixelflut.py:158-163 | after a run of registrations each name is bound to its last registration |
| `Events.RegisterAllKeeps` | pixelflut/pixelflut.py:158-163 | names a run of registrations never mentions keep their earlier handlers |
| `Framebuffer.Init` | pixelflut/pixelflut.py:88-100 | a new canvas is a well-formed black surface of `w*scale` by `h*scale` physical pixels |
| `Framebuffer.GetSize` | pixelflut/pixelflut.py:176-178 | the reported size is the column and row count of the physical grid |
| `Framebuffer.SizeIsPhysical` | pixelflut/pixelflut.py:176-182 | with zoom 2 or more the reported width exceeds the logical width, and a logical column inside the reported width is already unreadable |
| `Framebuffer.GetPixel` | pixelflut/pixelflut.py:180-182 | reading logical (x, y) succeeds exactly when physical (x*scale, y*scale) is on the surface, and yields that pixel's in-range colour |
| `Framebuffer.PaintBlock` | pixelflut/pixelflut.py:184-194 | a scaled write fails exactly for an invalid colour; otherwise it paints the `scale`-by-`scale` block of (x, y), clipped to the surface, and changes no other pixel |
| `Framebuffer.Blend` | pixelflut/pixelflut.py:205-207 | a blended channel is the floor of the 255-weighted mix of the old and the new value: 255 times it is at most the weighted sum, and 255 times one more exceeds it |
| `Framebuffer.BlendBetween` | pixelflut/pixelflut.py:205-207 | a blended channel lies between the old and the new value, so it stays within 0..255 |
| `Framebuffer.BlendColorValid` | pixelflut/pixelflut.py:203-208 | blending two valid colours at an alpha in 0..255 gives a valid colour |
| `Framebuffer.BlendIdentities` | pixelflut/pixelflut.py:205-207 | alpha 0 keeps the old colour and alpha 255 gives the new one |
| `Framebuffer.BlendExamples` | pixelflut/pixelflut.py:205-207 | worked values of the floor-division blend: 0 under 255 at 128 is 128, 0 under 128 at 128 is 64, 255 under 0 at 128 is 127 |
| `Framebuffer.SetPixel` | pixelflut/pixelflut.py:196-208 | alpha 0, or a blend at a position off the physical surface, changes nothing; alpha 255 paints the block exactly when the colour is valid, with no bounds check; an in-range blend paints the block with the blend of the physical pixel (x, y); the surface stays well-formed |
| `Framebuffer.OpaqueWriteReadsBack` | pixelflut/pixelflut.py:180-202 | an opaque write of a valid colour to a readable pixel reads back as that colour |
| `Framebuffer.OpaqueWriteLeavesOthers` | pixelflut/pixelflut.py:184-202 | an opaque write leaves every other logical pixel reading as before |
| `Framebuffer.BlendReadsUnscaledPixel` | pixelflut/pixelflut.py:203-208 | at zoom 2, blending black at alpha 128 over a pixel that reads black produces grey, because the blend read the neighbouring block |
| `Framebuffer.SetPixelLogical` | pixelflut/pixelflut.py:196-208 | with the intended read, a pixel written at any alpha in 0..255 reads back as the blend of what it read before and the drawn colour; at an alpha of 1..255 the whole block takes that colour and no other pixel changes; an unreadable pixel is left alone unless the alpha is 255 |
| `Framebuffer.SetPixelAgreesAtScaleOne` | pixelflut/pixelflut.py:196-208 | at zoom 1 the written and the intended `set_pixel` agree on every input |
| `Framebuffer.Clear` | pixelflut/pixelflut.py:210-212 | clearing fails exactly for an invalid colour; otherwise every pixel takes that colour and the dimensions stay; alpha is ignored |
| `Framebuffer.ClearReadsBack` | pixelflut/pixelflut.py:180-212 | after a clear every readable pixel reads as the clearing colour, whatever alpha was passed |
| `Sessions.Send` | pixelflut/pixelflut.py:38-41 | `send` appends the line plus a newline while a socket is present and is a no-op without one; it fires nothing |
| `Sessions.Disconnect` | pixelflut/pixelflut.py:46-52 | `disconnect` always leaves the client without a socket, and fires `DISCONNECT` once only when it had one |
| `Sessions.DisconnectIdempotent` | pixelflut/pixelflut.py:46-52 | a second `disconnect` does nothing, whatever handlers are registered by then |
| `Sessions.SendAfterDisconnect` | pixelflut/pixelflut.py:38-52 | a `send` after `disconnect` changes nothing |
| `Sessions.FreshClientIsSilent` | pixelflut/pixelflut.py:29-52 | a new client has no socket and has fired and sent nothing; `send` and `disconnect` on it change nothing |
| `Sessions.CommandOf` | pixelflut/pixelflut.py:70-72 | every non-blank line dispatches an event in the `COMMAND-` namespace; its name and arguments are stated by `Sessions.CommandOfWords` |
| `Sessions.CommandOfWords` | pixelflut/pixelflut.py:67-72 | a read made of words with any whitespace between and around them dispatches `COMMAND-` plus the upper-cased first word, with the other words as arguments, and the stripped read dispatches the same |
| `Sessions.CommandOfStripped` | pixelflut/pixelflut.py:67-72 | a non-blank read dispatches the same command whether or not it is stripped first |
| `Sessions.CommandOfTabs` | pixelflut/pixelflut.py:67-72 | the read `px\t1  2\n` dispatches `COMMAND-PX` with the arguments `1` and `2` |
| `Sessions.DispatchLine` | pixelflut/pixelflut.py:72-73 | a line first fires its command on the table; the session stays live exactly when it was live and the command has a handler that does not raise; the only other event is one `DISCONNECT`, fired when a live session is lost; all of it is appended to the log and nothing is sent |
| `Sessions.DispatchLineFacts` | pixelflut/pixelflut.py:72-73 | a line's dispatch fires, from the table, its one command and then at most a `DISCONNECT`; a live session survives exactly when that command has a non-raising handler, and otherwise fires `DISCONNECT` right after it, once; a closed one stays closed |
| `Sessions.ReadLines` | pixelflut/pixelflut.py:64-69 | a burst reads at most its budget of consecutive 1600-byte-bounded lines and at least one; every read but the last is non-blank, and stopping early means the last one was blank |
| `Sessions.DispatchAll` | pixelflut/pixelflut.py:64-73 | the non-blank lines' commands are fired in order on the table, each record being what `fire` returns, and the only other event is `DISCONNECT` fired with no arguments; a falsy one disconnects without ending the burst; a closed session stays closed; a live one stays live exactly when every command has a non-raising handler, and otherwise fires one `DISCONNECT`, right after the first falsy command |
| `Sessions.ReadBurst` | pixelflut/pixelflut.py:64-73 | one burst reads one to ten consecutive 1600-byte-bounded lines and stops early only at a blank read; it fires exactly the non-blank lines' commands, in order, from the table; a live session ends live exactly when each has a non-raising handler, and otherwise fires one argument-less `DISCONNECT`, right after the first falsy command |
| `Sessions.Loop` | pixelflut/pixelflut.py:61-75 | the loop is a chain of passes, one per round while the socket is there, each starting live where the previous one left off; each pass reads one to ten consecutive bounded lines, stopping early only at a blank read, and fires its non-blank reads' commands in order from the table; a live session finishes exactly when one of those commands has no handler or a raising one, firing `DISCONNECT` once, with no arguments, right after it; it runs all `ticks` rounds otherwise; a closed session finishes at once and does nothing |
| `Sessions.Serve` | pixelflut/pixelflut.py:54-75 | `CONNECT` is fired first and the loop then runs on a live session, pass by pass as for `Sessions.Loop`: the commands fired are those of the non-blank reads, and the client finishes, with exactly one argument-less `DISCONNECT`, exactly when one of them has no handler or a raising one; the log only grows |
| `Sessions.IdleAtEndOfStream` | pixelflut/pixelflut.py:62-69 | at end of input every round is a pass that reads one empty line; a live session fires nothing, keeps its socket and never finishes |
| `Registry.Admit` | pixelflut/pixelflut.py:117-127 | admission adds only the peer's IP as a key; a known record keeps its original address, its session is disconnected and it gets the new task; an unknown IP gets a fresh record; other records are untouched; the registry stays valid |
| `Registry.ReconnectDisconnectsOnce` | pixelflut/pixelflut.py:120-123 | a reconnect fires exactly one `DISCONNECT` on the old session if it was live, and nothing if it was not |
| `Registry.KeyedByIp` | pixelflut/pixelflut.py:117-127 | two connections from one IP on any ports share one record, which keeps the first address and is served by the later task |
| `Registry.AdmitAll` | pixelflut/pixelflut.py:116-127 | over a sequence of connections one task is spawned per connection; the keys grow by exactly the IPs seen; the last IP is served by the newest task; clients whose IP does not connect again are unchanged |
| `Registry.AdmitAllValid` | pixelflut/pixelflut.py:116-127 | over any sequence of connections there is one record per IP seen, and each record's task is a distinct one already spawned |
| `Registry.ServeFromEmpty` | pixelflut/pixelflut.py:101-127 | starting from an empty `clients` dictionary, any sequence of connections leaves exactly one valid record per IP seen and one spawned task per connection |
| `Brain.Reloaded` | pixelflut/pixelflut.py:291-293 | after a reload the table binds exactly the names the brain registers |
| `Brain.Poll` | pixelflut/pixelflut.py:287-298 | an unchanged file changes nothing; a newer one fires `UNLOAD` on the old table, replaces the table, then fires `LOAD` on the new one and records the second stat only if the brain did not raise |
| `Brain.PollAll` | pixelflut/pixelflut.py:287-298 | over any sequence of polls the events fired before are kept, and each poll adds at most two |
| `Brain.RetryAfterFailure` | pixelflut/pixelflut.py:289-296 | after a failing reload the recorded mtime is unchanged, so the next poll of the same file reloads again |
| `Brain.SettlesAfterSuccess` | pixelflut/pixelflut.py:289-298 | after a successful reload, a poll that sees no newer file changes nothing |
| `Brain.ReloadForgetsHistory` | pixelflut/pixelflut.py:284-293 | the table after a reload is the same whatever state the loop was in before |
| `Brain.FailingBrainNeverLoads` | pixelflut/pixelflut.py:287-298 | with a brain that always raises, the mtime never advances, `LOAD` never fires, and `UNLOAD` fires once per poll that sees a newer file |
| `Brain.FailingBrainFromStart` | pixelflut/pixelflut.py:282-298 | from the start (`mtime = 0`), a brain that always raises never fires `LOAD`, keeps mtime 0, and fires `UNLOAD` once per poll that sees a positive mtime |
| `SizeArg.Groups` | pixelflut/pixelflut.py:270-271 | whatever groups the scanner returns form a match of the pattern with the argument |
| `SizeArg.GroupsComplete` | pixelflut/pixelflut.py:270-271 | every match of the pattern is the one the scanner finds, so the groups are unique |
| `SizeArg.ParseSize` | pixelflut/pixelflut.py:270-276 | an argument is accepted exactly when it matches `^(\d+)x(\d+)$`, where `$` allows one final newline, and then as the decimal values of the two groups |
| `SizeArg.ParseSizeMatches` | pixelflut/pixelflut.py:270-276 | any two digit runs around `x`, with or without one final newline, are accepted with their decimal values |
| `SizeArg.ParseFormat` | pixelflut/pixelflut.py:270-274 | printing a size as `<w>x<h>` and parsing it gives the size back, also with a trailing newline |
| `SizeArg.AcceptDefault` | pixelflut/pixelflut.py:263-274 | the default `640x480` parses to (640, 480) |
| `SizeArg.AcceptLeadingZeros` | pixelflut/pixelflut.py:270-274 | leading zeros are accepted and ignored |
| `SizeArg.RejectUpperX` | pixelflut/pixelflut.py:270-276 | an upper-case `X` separator is rejected |
| `SizeArg.RejectLeadingSpace` | pixelflut/pixelflut.py:270-276 | a leading space is rejected |
| `SizeArg.RejectTwoNewlines` | pixelflut/pixelflut.py:270-276 | one final newline is tolerated, two are rejected |

## Left out

- Networking and concurrency are not modelled: sockets, `makefile`, `spawn`, `task.kill`
  (with the `GreenletExit` it raises inside `fire`) and the per-client `RLock`. Each
  operation other than `Sessions.Loop` and `Sessions.Serve` is one sequential step; those
  two run many rounds but see no other task between them (see `Sessions.Loop` below). The
  killed task of a replaced client is only a number that stops being the client's task.
- Timing is not modelled: `gsleep` and the 30-frames-per-second display loop `_loop`
  (pixelflut/pixelflut.py:129-156), including window events, resizing, `QUIT`, key handling,
  `flip` and the frame counter.
- Image and text I/O is not modelled: `save_as`, `load_from`, `load_font`, `putc`, `text`
  and `set_title`. They are file I/O and blits.
- The real `compile`, `exec` and `os.stat` are foreign calls. They are replaced by a
  `Script` value and caller-supplied modification times, and the times are integers
  rather than floats.
- Option parsing other than `--size` is not modelled (`--host`, `--port`, `--zoom`, the
  argument count). Neither are `__str__` or `nospam`, which is an alias of `send`.
- Handlers are abstract. What a command handler draws or sends is not modelled; only
  whether it raises is.
- `Framebuffer.Init`: requires the width, the height and the zoom to be at least 1, because
  pygame's treatment of a zero-sized mode (it opens a desktop-sized window) is outside the
  repository.
- `Framebuffer.GetPixel`: returns an RGB colour, while pygame's `get_at` also returns an
  alpha channel, which the code never uses.
- `Framebuffer.Blend`: uses Python 2's flooring `/`. The constructor's keyword-only
  parameters need Python 3, where `/` is true division and the channels reach pygame as
  floats; that variant is not modelled.
- `Text.Upper`, `Text.Split` and `SizeArg.Groups`: model the ASCII behaviour of
  `upper`, `split`, `strip` and `\d`; locale and Unicode variants are not modelled.
- `Sessions.Loop`: `ticks` bounds the number of scheduling rounds, since the real loop
  runs until the socket is gone or the task is killed. A loop that is still running when
  the rounds run out is reported as unfinished.
- `Sessions.Loop` and `Sessions.Serve`: take one event table for the whole session. In the
  source each round starts with `gsleep` (pixelflut/pixelflut.py:63) and a blocking
  `readline` can also yield, so the brain's reload (pixelflut/pixelflut.py:287-298) may run
  between rounds, fire `UNLOAD`, clear the table and register new handlers. A table that
  changes mid-session is not modelled.
- `Text.ReadLine`: follows Python 2's byte-file `readline(1600)`, which reads at most 1600
  bytes and ends a line only at `\n`. The file needs Python 3 (the keyword-only `*` at
  pixelflut/pixelflut.py:88) and, because of `async = spawn` at line 23, at most Python 3.6.
  There `makefile()` (line 59) opens a text file, so the limit counts decoded characters,
  `\r` and `\r\n` also end a line, and undecodable input raises. None of that is modelled.
- `Sessions.Send`: appends `line + '\n'` to what was sent, as Python 2's `sendall` of a
  byte string does. Under Python 3, `sendall` (pixelflut/pixelflut.py:41) gets a `str`
  and raises `TypeError`, so a handler that sends would fail. That is not modelled.
- Default arguments are not modelled: `set_pixel`'s `a=255`, `clear`'s `r=g=b=0, a=255`
  and `Canvas`'s `size=None`, which keeps 640x480. Every operation takes all its arguments.
- The exception path of `try/finally` (pixelflut/pixelflut.py:61, 74-75) is not modelled.
  In the source a failing read reaches `finally: self.disconnect()` and fires
  `DISCONNECT`. The model's input never fails, so `finally` only runs once the loop has
  exited, when the socket is already gone and it does nothing.
- `Sessions.ReadBurst`: computes the burst's reads before its dispatches. Handlers in
  this model cannot influence what the client sends, so this gives the same result as the
  interleaved `for` loop.

## Findings

| source | as written | input that shows it | evidently intended | confidence | as-written member | corrected member |
|---|---|---|---|---|---|---|
| pixelflut/pixelflut.py:203-204 | the alpha-blend branch of `set_pixel` checks (x, y) against the physical surface size and reads the physical pixel (x, y), although (x, y) are logical coordinates | zoom 2, a 2x2 canvas: paint (0, 0) opaque white, then blend black at alpha 128 onto (1, 1), which reads black; it becomes (127, 127, 127) instead of black, because physical (1, 1) lies in the white block of (0, 0) | check and read the pixel `get_pixel(x, y)` reports, at (x*zoom, y*zoom) | high, not executed | `Framebuffer.BlendReadsUnscaledPixel` | `Framebuffer.SetPixelLogical` |

=== FILE: brain.dfy ===
/**
 The behaviour-reload loop at the end of the program: once a second it compares the brain
 script's modification time with the one it last loaded, and when the file is newer it
 fires `UNLOAD`, empties the event table, executes the script (which registers handlers
 through `on`) and, if that did not raise, fires `LOAD` and records the new time.

 The script is compiled once, before the loop, so every reload executes the same code;
 its effect is abstract: the registrations it makes, in order, and whether it raises after
 making them. Modification times are supplied by the caller, one per `os.stat`.
 */
module Brain {
  import opened Events

  const Load: string := "LOAD"
  const Unload: string := "UNLOAD"

  /** The compiled brain: the `on` registrations its execution performs, then whether it raises. */
  datatype Script = Script(regs: seq<Registration>, raises: bool)

  /** The loop's state: the last recorded mtime, the canvas's event table, and the events fired by the loop. */
  datatype Loader = Loader(mtime: int, table: Table, log: seq<Dispatch>)

  /** Before the first poll: mtime 0, nothing registered, nothing fired. */
  const Start: Loader := Loader(0, map[], [])

  /** The table a reload leaves behind: emptied, then filled by the script's registrations up to any raise. */
  function Reloaded(code: Script): (t: Table)
    ensures t.Keys == Names(code.regs)
  {
    RegisterAll(map[], code.regs)
  }

  /**
   One iteration of the loop. `fileMtime` is the first `os.stat` of the iteration;
   `statAfter` is the second one, taken after a successful reload.
   */
  function Poll(st: Loader, code: Script, fileMtime: int, statAfter: int): (r: Loader)
    ensures fileMtime <= st.mtime ==> r == st
    ensures st.mtime < fileMtime ==>
              && r.table == Reloaded(code)
              && |r.log| == |st.log| + (if code.raises then 1 else 2)
              && r.log[..|st.log| + 1] == st.log + [Fire(st.table, Unload, [])]
              && (!code.raises ==> r.log[|st.log| + 1] == Fire(Reloaded(code), Load, []))
              && r.mtime == (if code.raises then st.mtime else statAfter)
  {
    if st.mtime < fileMtime then
      var bye := Fire(st.table, Unload, []);
      var table := Reloaded(code);
      if code.raises then
        Loader(st.mtime, table, st.log + [bye])
      else
        var log := st.log + [bye] + [Fire(table, Load, [])];
        assert log[..|st.log| + 1] == st.log + [bye];
        Loader(statAfter, table, log)
    else
      st
  }

  /** A script that raises leaves the recorded mtime alone, so the next poll of an unchanged file reloads again. */
  lemma RetryAfterFailure(st: Loader, code: Script, fileMtime: int, statAfter: int, nextStat: int, nextAfter: int)
    requires code.raises && st.mtime < fileMtime && fileMtime <= nextStat
    ensures var r := Poll(st, code, fileMtime, statAfter);
            && r.mtime == st.mtime
            && Poll(r, code, nextStat, nextAfter).log == r.log + [Fire(r.table, Unload, [])]
  {
  }

  /** After a successful reload, polls that see no newer file change nothing. */
  lemma SettlesAfterSuccess(st: Loader, code: Script, fileMtime: int, statAfter: int, nextStat: int, nextAfter: int)
    requires !code.raises && st.mtime < fileMtime && nextStat <= statAfter
    ensures var r := Poll(st, code, fileMtime, statAfter);
            Poll(r, code, nextStat, nextAfter) == r
  {
  }

  /** Because the code is compiled once, what a reload registers does not depend on what was loaded before. */
  lemma ReloadForgetsHistory(a: Loader, b: Loader, code: Script, fileMtime: int, statAfter: int)
    requires a.mtime < fileMtime && b.mtime < fileMtime
    ensures Poll(a, code, fileMtime, statAfter).table == Poll(b, code, fileMtime, statAfter).table
  {
  }

  /** One pair of `os.stat` results per iteration of the loop. */
  datatype Stat = Stat(first: int, after: int)

  /**
   The loop run over a sequence of iterations: the events fired before it are kept, and each
   iteration adds at most two (`UNLOAD`, then `LOAD`).
   */
  function PollAll(st: Loader, code: Script, stats: seq<Stat>): (r: Loader)
    ensures |st.log| <= |r.log| <= |st.log| + 2 * |stats|
    ensures r.log[..|st.log|] == st.log
    decreases |stats|
  {
    if stats == [] then
      st
    else
      var next := Poll(st, code, stats[0].first, stats[0].after);
      var r := PollAll(next, code, stats[1..]);
      assert next.log[..|st.log|] == st.log;
      assert r.log[..|st.log|] == r.log[..|next.log|][..|st.log|];
      r
  }

  /** How many iterations see a file newer than `mtime`. */
  function NewerCount(mtime: int, stats: seq<Stat>): nat
    decreases |stats|
  {
    if stats == [] then 0 else (if mtime < stats[0].first then 1 else 0) + NewerCount(mtime, stats[1..])
  }

  /**
   A brain that always raises is never marked loaded: the mtime stays where it was, `LOAD`
   never fires, and every poll that sees the file newer than that fires `UNLOAD` again.
   */
  lemma {:induction false} FailingBrainNeverLoads(st: Loader, code: Script, stats: seq<Stat>)
    requires code.raises
    ensures PollAll(st, code, stats).mtime == st.mtime
    ensures Count(PollAll(st, code, stats).log, Load) == Count(st.log, Load)
    ensures Count(PollAll(st, code, stats).log, Unload) == Count(st.log, Unload) + NewerCount(st.mtime, stats)
    decreases |stats|
  {
    if stats != [] {
      var next := Poll(st, code, stats[0].first, stats[0].after);
      FailingBrainNeverLoads(next, code, stats[1..]);
      if st.mtime < stats[0].first {
        var bye := Fire(st.table, Unload, []);
        assert next.log == st.log + [bye];
        CountAppend(st.log, [bye], Load);
        CountAppend(st.log, [bye], Unload);
      }
    }
  }

  /**
   From the loop's start (mtime 0, nothing registered), a brain that always raises never
   fires `LOAD`, and fires `UNLOAD` once for each poll that sees a positive mtime.
   */
  lemma FailingBrainFromStart(code: Script, stats: seq<Stat>)
    requires code.raises
    ensures PollAll(Start, code, stats).mtime == 0
    ensures Count(PollAll(Start, code, stats).log, Load) == 0
    ensures Count(PollAll(Start, code, stats).log, Unload) == NewerCount(0, stats)
  {
    FailingBrainNeverLoads(Start, code, stats);
  }
}


=== FILE: events.dfy ===
/**
 The canvas's event table (`Canvas.on` and `Canvas.fire`): one handler per event name.
 A handler is abstract: an identity plus whether invoking it raises an exception.
 What a handler does to the canvas or to a session is not part of this model.
 */
module Events {
  import opened Results

  /** A registered callback; `raises` says whether calling it ends in an exception. */
  datatype Handler = Handler(id: nat, raises: bool)

  /** The `events` dictionary of the canvas. */
  type Table = map<string, Handler>

  /** An event fired by name with its string arguments (the canvas and client are implicit). */
  datatype Call = Call(name: string, args: seq<string>)

  /** One `fire`: what was fired, which handler ran (if any), and whether `fire` returned `True`. */
  datatype Dispatch = Dispatch(call: Call, invoked: Option<Handler>, ok: bool)

  /** How many dispatches in `log` fired the event `name`. */
  function Count(log: seq<Dispatch>, name: string): nat
    decreases |log|
  {
    if log == [] then 0 else (if log[0].call.name == name then 1 else 0) + Count(log[1..], name)
  }

  lemma {:induction false} CountAppend(a: seq<Dispatch>, b: seq<Dispatch>, name: string)
    ensures Count(a + b, name) == Count(a, name) + Count(b, name)
    decreases |a|
  {
    if a == [] {
      assert a + b == b;
    } else {
      assert (a + b)[1..] == a[1..] + b;
      CountAppend(a[1..], b, name);
    }
  }

  /** One `on(name)(func)` performed by the behaviour script. */
  datatype Registration = Registration(name: string, handler: Handler)

  /** `on(name)` applied to `handler`: the last registration for a name wins; other names keep theirs. */
  function On(table: Table, name: string, handler: Handler): (r: Table)
    ensures name in r && r[name] == handler
    ensures r.Keys == table.Keys + {name}
    ensures forall n | n in table && n != name :: r[n] == table[n]
  {
    table[name := handler]
  }

  /**
   `fire(name, *args)`: runs the handler registered for `name`, if any. It yields `True`
   only when a handler exists and returns normally; a missing handler or one that raises
   falls through to the implicit `None`.
   */
  function Fire(table: Table, name: string, args: seq<string>): (d: Dispatch)
    ensures d.call == Call(name, args)
    ensures d.invoked.Some? <==> name in table
    ensures d.invoked.Some? ==> d.invoked.value == table[name]
    ensures d.ok <==> name in table && !table[name].raises
  {
    if name in table then
      var h := table[name];
      Dispatch(Call(name, args), Some(h), !h.raises)
    else
      Dispatch(Call(name, args), None, false)
  }

  /** Registering twice under one name leaves only the second handler to be invoked. */
  lemma LastRegistrationWins(table: Table, name: string, first: Handler, second: Handler, args: seq<string>)
    ensures Fire(On(On(table, name, first), name, second), name, args).invoked == Some(second)
    ensures Fire(On(On(table, name, first), name, second), name, args).ok <==> !second.raises
  {
  }

  /** Registering one name does not change what firing any other name does. */
  lemma OnLeavesOtherNames(table: Table, name: string, handler: Handler, other: string, args: seq<string>)
    requires other != name
    ensures Fire(On(table, name, handler), other, args) == Fire(table, other, args)
  {
  }

  /** The names a sequence of registrations binds. */
  function Names(regs: seq<Registration>): set<string> {
    set i | 0 <= i < |regs| :: regs[i].name
  }

  /** Executing the behaviour script: its `on` registrations applied in order. */
  function RegisterAll(table: Table, regs: seq<Registration>): (r: Table)
    ensures r.Keys == table.Keys + Names(regs)
    decreases |regs|
  {
    if regs == [] then
      table
    else
      var r := RegisterAll(On(table, regs[0].name, regs[0].handler), regs[1..]);
      assert Names(regs) == {regs[0].name} + Names(regs[1..]) by {
        forall n | n in Names(regs) ensures n in {regs[0].name} + Names(regs[1..]) {
          var i :| 0 <= i < |regs| && regs[i].name == n;
          if i > 0 { assert regs[1..][i - 1].name == n; }
        }
      }
      r
  }

  /** After a sequence of registrations, a name is bound to its last registration. */
  lemma {:induction false} RegisterAllLastWins(table: Table, regs: seq<Registration>, i: nat)
    requires i < |regs|
    requires forall j | i < j < |regs| :: regs[j].name != regs[i].name
    ensures RegisterAll(table, regs)[regs[i].name] == regs[i].handler
    decreases |regs|
  {
    var next := On(table, regs[0].name, regs[0].handler);
    if i == 0 {
      RegisterAllKeeps(next, regs[1..], regs[0].name);
    } else {
      RegisterAllLastWins(next, regs[1..], i - 1);
    }
  }

  /** Names no registration mentions keep the handler they had before. */
  lemma {:induction false} RegisterAllKeeps(table: Table, regs: seq<Registration>, name: string)
    requires forall j | 0 <= j < |regs| :: regs[j].name != name
    requires name in table
    ensures RegisterAll(table, regs)[name] == table[name]
    decreases |regs|
  {
    if regs != [] {
      RegisterAllKeeps(On(table, regs[0].name, regs[0].handler), regs[1..], name);
    }
  }
}

=== FILE: framebuffer.dfy ===
/**
 The canvas pixel store: a pygame display surface magnified by `scale`.

 The grid is the PHYSICAL surface: `width` and `height` are the surface's own dimensions
 (the logical canvas size times `scale`), and `pixels[py][px]` is the colour at physical
 position (px, py). Callers use logical coordinates; a logical pixel (x, y) covers the
 `scale`-by-`scale` block whose top-left corner is (x * scale, y * scale).

 Drawing-library behaviour the model assumes: writes outside the surface are clipped,
 reads outside it fail, and a colour with a channel outside 0..255 is rejected.
 */
module Framebuffer {
  import opened Results

  /** The alpha value that means "fully opaque" (0xff). */
  const Opaque: int := 255

  datatype Color = Color(r: int, g: int, b: int)

  const Black := Color(0, 0, 0)

  predicate IsChannel(v: int) {
    0 <= v <= 255
  }

  predicate ValidColor(c: Color) {
    IsChannel(c.r) && IsChannel(c.g) && IsChannel(c.b)
  }

  datatype Canvas = Canvas(scale: int, width: int, height: int, pixels: seq<seq<Color>>)

  /** What the drawing library can raise: a read outside the surface, or an invalid colour. */
  datatype Error = OutOfRange | InvalidColor

  /** The grid matches the surface dimensions and every stored channel is in 0..255. */
  predicate Valid(c: Canvas) {
    && c.scale >= 1
    && c.width >= 0
    && |c.pixels| == c.height
    && (forall py | 0 <= py < |c.pixels| :: |c.pixels[py]| == c.width)
    && (forall py, px | 0 <= py < |c.pixels| && 0 <= px < |c.pixels[py]| :: ValidColor(c.pixels[py][px]))
  }

  /** A physical position that lies on the surface. */
  predicate OnSurface(c: Canvas, px: int, py: int) {
    0 <= px < c.width && 0 <= py < c.height
  }

  /** Physical position (px, py) belongs to the block of logical pixel (x, y). */
  predicate InBlock(scale: int, x: int, y: int, px: int, py: int) {
    x * scale <= px < x * scale + scale && y * scale <= py < y * scale + scale
  }

  /** `after` is `before` with the block of logical pixel (x, y) painted `col`, and nothing else changed. */
  ghost predicate Painted(before: Canvas, after: Canvas, x: int, y: int, col: Color)
    requires Valid(before)
  {
    && Valid(after)
    && after.scale == before.scale && after.width == before.width && after.height == before.height
    && forall py, px | OnSurface(before, px, py) ::
         after.pixels[py][px] == (if InBlock(before.scale, x, y, px, py) then col else before.pixels[py][px])
  }

  /** `Canvas(size=(w, h), scale=scale)`: a black surface of `w*scale` by `h*scale` physical pixels. */
  function Init(w: int, h: int, scale: int): (c: Canvas)
    requires w >= 1 && h >= 1 && scale >= 1
    ensures Valid(c) && c.scale == scale
    ensures c.width == w * scale && c.height == h * scale
    ensures forall py, px | OnSurface(c, px, py) :: c.pixels[py][px] == Black
  {
    Canvas(scale, w * scale, h * scale, seq(h * scale, _ => seq(w * scale, _ => Black)))
  }

  /** `get_size`: the dimensions of the physical surface, as columns and rows of the grid. */
  function GetSize(c: Canvas): (size: (int, int))
    requires Valid(c)
    ensures size.1 == |c.pixels|
    ensures forall py | 0 <= py < |c.pixels| :: |c.pixels[py]| == size.0
  {
    (c.width, c.height)
  }

  /** `get_pixel(x, y)`: the colour at the top-left corner of the logical pixel's block. */
  function GetPixel(c: Canvas, x: int, y: int): (r: Result<Color, Error>)
    requires Valid(c)
    ensures r.Ok? <==> OnSurface(c, x * c.scale, y * c.scale)
    ensures r.Ok? ==> ValidColor(r.value) && r.value == c.pixels[y * c.scale][x * c.scale]
  {
    var px := x * c.scale;
    var py := y * c.scale;
    if OnSurface(c, px, py) then Ok(c.pixels[py][px]) else Err(OutOfRange)
  }

  /** pygame `set_at`: writes one physical pixel; a position off the surface is dropped. */
  function SetAt(c: Canvas, px: int, py: int, col: Color): Canvas
    requires Valid(c) && ValidColor(col)
  {
    if OnSurface(c, px, py) then c.(pixels := c.pixels[py := c.pixels[py][px := col]]) else c
  }

  /** pygame `draw.rect` with a square of side `side`: the part on the surface is filled. */
  function FillSquare(c: Canvas, left: int, top: int, side: int, col: Color): Canvas
    requires Valid(c) && ValidColor(col)
  {
    c.(pixels := seq(c.height, py requires 0 <= py < c.height =>
      seq(c.width, px requires 0 <= px < c.width =>
        if left <= px < left + side && top <= py < top + side then col else c.pixels[py][px])))
  }

  /** `_set_scaled_pixel((x, y), col)`: paints exactly the block of logical pixel (x, y). */
  function PaintBlock(c: Canvas, x: int, y: int, col: Color): (r: Result<Canvas, Error>)
    requires Valid(c)
    ensures r.Err? <==> !ValidColor(col)
    ensures r.Ok? ==> Painted(c, r.value, x, y, col)
  {
    if !ValidColor(col) then
      Err(InvalidColor)
    else if c.scale == 1 then
      var r := SetAt(c, x, y, col);
      assert forall px, py :: InBlock(1, x, y, px, py) <==> px == x && py == y;
      Ok(r)
    else
      Ok(FillSquare(c, x * c.scale, y * c.scale, c.scale, col))
  }

  /**
   One channel of the alpha blend, with Python 2's flooring `/`: the largest integer whose
   255-fold does not exceed the weighted sum of the old and the new value.
   */
  function Blend(dst: int, src: int, a: int): (v: int)
    ensures Opaque * v <= dst * (Opaque - a) + src * a < Opaque * v + Opaque
  {
    (dst * (Opaque - a) + src * a) / Opaque
  }

  function BlendColor(dst: Color, src: Color, a: int): Color {
    Color(Blend(dst.r, src.r, a), Blend(dst.g, src.g, a), Blend(dst.b, src.b, a))
  }

  function Min(a: int, b: int): int { if a <= b then a else b }
  function Max(a: int, b: int): int { if a <= b then b else a }

  lemma MulNonNegative(u: int, v: int)
    requires u >= 0 && v >= 0
    ensures u * v >= 0
  {
  }

  /** A numerator between 255*lo and 255*hi floors to a quotient between lo and hi. */
  lemma DivBetween(n: int, lo: int, hi: int)
    requires Opaque * lo <= n <= Opaque * hi
    ensures lo <= n / Opaque <= hi
  {
  }

  /** A blended channel lies between the surface's value `dst` and the drawn value `src`, so it stays in 0..255. */
  lemma BlendBetween(dst: int, src: int, a: int)
    requires IsChannel(dst) && IsChannel(src) && 0 <= a <= Opaque
    ensures Min(dst, src) <= Blend(dst, src, a) <= Max(dst, src)
    ensures IsChannel(Blend(dst, src, a))
  {
    var n := dst * (Opaque - a) + src * a;
    var lo := Min(dst, src);
    var hi := Max(dst, src);
    MulNonNegative(dst - lo, Opaque - a);
    MulNonNegative(src - lo, a);
    assert n - Opaque * lo == (dst - lo) * (Opaque - a) + (src - lo) * a;
    MulNonNegative(hi - dst, Opaque - a);
    MulNonNegative(hi - src, a);
    assert Opaque * hi - n == (hi - dst) * (Opaque - a) + (hi - src) * a;
    DivBetween(n, lo, hi);
  }

  lemma BlendColorValid(dst: Color, src: Color, a: int)
    ensures ValidColor(dst) && ValidColor(src) && 0 <= a <= Opaque ==> ValidColor(BlendColor(dst, src, a))
  {
    if ValidColor(dst) && ValidColor(src) && 0 <= a <= Opaque {
      BlendBetween(dst.r, src.r, a);
      BlendBetween(dst.g, src.g, a);
      BlendBetween(dst.b, src.b, a);
    }
  }

  /** Worked values: black under white at alpha 128 gives exactly 128; 128*128/255 floors to 64. */
  lemma BlendExamples()
    ensures Blend(0, 255, 128) == 128
    ensures Blend(0, 128, 128) == 64
    ensures Blend(255, 0, 128) == 127
  {
  }

  /**
   `set_pixel(x, y, r, g, b, a)` as written: alpha 0 does nothing; alpha 255 paints the
   block without a bounds check; any other alpha checks (x, y) against the physical
   surface, reads the UNSCALED physical pixel (x, y), and paints the block with the blend.
   */
  function SetPixel(c: Canvas, x: int, y: int, r: int, g: int, b: int, a: int): (res: Result<Canvas, Error>)
    requires Valid(c)
    ensures a == 0 ==> res == Ok(c)
    ensures a != 0 && a != Opaque && !OnSurface(c, x, y) ==> res == Ok(c)
    ensures a == Opaque ==> (res.Ok? <==> ValidColor(Color(r, g, b)))
    ensures a == Opaque && res.Ok? ==> Painted(c, res.value, x, y, Color(r, g, b))
    ensures 0 < a < Opaque && OnSurface(c, x, y) && ValidColor(Color(r, g, b)) ==>
              res.Ok? && Painted(c, res.value, x, y, BlendColor(c.pixels[y][x], Color(r, g, b), a))
    ensures res.Ok? ==> Valid(res.value)
  {
    if a == 0 then
      Ok(c)
    else if a == Opaque then
      PaintBlock(c, x, y, Color(r, g, b))
    else if OnSurface(c, x, y) then
      var dst := c.pixels[y][x];
      var mixed := BlendColor(dst, Color(r, g, b), a);
      BlendColorValid(dst, Color(r, g, b), a);
      PaintBlock(c, x, y, mixed)
    else
      Ok(c)
  }

  /** An opaque write to a readable logical pixel reads back exactly. */
  lemma OpaqueWriteReadsBack(c: Canvas, x: int, y: int, col: Color)
    requires Valid(c) && ValidColor(col)
    requires GetPixel(c, x, y).Ok?
    ensures SetPixel(c, x, y, col.r, col.g, col.b, Opaque).Ok?
    ensures GetPixel(SetPixel(c, x, y, col.r, col.g, col.b, Opaque).value, x, y) == Ok(col)
  {
    var after := SetPixel(c, x, y, col.r, col.g, col.b, Opaque).value;
    assert InBlock(c.scale, x, y, x * c.scale, y * c.scale);
  }

  /** Distinct logical coordinates have disjoint blocks along that axis. */
  lemma BlocksApart(u: int, v: int, s: int)
    requires u < v && s >= 1
    ensures u * s + s <= v * s
  {
    assert v * s - u * s == (v - u) * s;
    assert (v - u) * s >= s by {
      MulNonNegative(v - u - 1, s);
      assert (v - u) * s == (v - u - 1) * s + s;
    }
  }

  /** An opaque write leaves every other logical pixel reading as before. */
  lemma OpaqueWriteLeavesOthers(c: Canvas, x: int, y: int, col: Color, x': int, y': int)
    requires Valid(c) && ValidColor(col)
    requires x' != x || y' != y
    ensures GetPixel(SetPixel(c, x, y, col.r, col.g, col.b, Opaque).value, x', y') == GetPixel(c, x', y')
  {
    var s := c.scale;
    if OnSurface(c, x' * s, y' * s) {
      if x' != x {
        if x' < x { BlocksApart(x', x, s); } else { BlocksApart(x, x', s); }
      } else {
        if y' < y { BlocksApart(y', y, s); } else { BlocksApart(y, y', s); }
      }
      assert !InBlock(s, x, y, x' * s, y' * s);
    }
  }

  /**
   With a zoom of 2, the blend branch of `SetPixel` mixes with the wrong pixel: after an
   opaque white write to logical (0, 0), logical (1, 1) still reads black, yet blending
   black over it at alpha 128 yields grey, because the branch read physical (1, 1),
   which lies in the white block of logical (0, 0).
   */
  lemma BlendReadsUnscaledPixel()
    ensures var c1 := SetPixel(Init(2, 2, 2), 0, 0, 255, 255, 255, Opaque).value;
            var c2 := SetPixel(c1, 1, 1, 0, 0, 0, 128).value;
            && GetPixel(c1, 1, 1) == Ok(Black)
            && GetPixel(c2, 1, 1) == Ok(Color(127, 127, 127))
            && GetPixel(c2, 1, 1) != Ok(BlendColor(GetPixel(c1, 1, 1).value, Black, 128))
  {
    var c0 := Init(2, 2, 2);
    var white := Color(255, 255, 255);
    var c1 := SetPixel(c0, 0, 0, 255, 255, 255, Opaque).value;
    assert InBlock(2, 0, 0, 1, 1);
    assert !InBlock(2, 0, 0, 2, 2);
    assert c1.pixels[1][1] == white;
    assert c1.pixels[2][2] == Black;
    var c2 := SetPixel(c1, 1, 1, 0, 0, 0, 128).value;
    assert InBlock(2, 1, 1, 2, 2);
    assert c2.pixels[2][2] == BlendColor(white, Black, 128);
    assert Blend(255, 0, 128) == 127;
    assert Blend(0, 0, 128) == 0;
  }

  lemma BlendIdentities(dst: Color, src: Color)
    ensures BlendColor(dst, src, 0) == dst
    ensures BlendColor(dst, src, Opaque) == src
  {
  }

  /**
   `set_pixel` as evidently intended: the blend branch checks and reads the logical pixel
   that `get_pixel` reports. Reading the pixel back then gives the blend of its previous
   colour and the drawn colour, for every alpha from 0 to 255; for a non-zero alpha the
   whole block takes that colour and nothing else changes.
   */
  function SetPixelLogical(c: Canvas, x: int, y: int, r: int, g: int, b: int, a: int): (res: Result<Canvas, Error>)
    requires Valid(c)
    ensures a == 0 ==> res == Ok(c)
    ensures res.Ok? ==> Valid(res.value)
    ensures 0 <= a <= Opaque && ValidColor(Color(r, g, b)) && GetPixel(c, x, y).Ok? ==>
              res.Ok? && GetPixel(res.value, x, y) == Ok(BlendColor(GetPixel(c, x, y).value, Color(r, g, b), a))
    ensures a != Opaque && !GetPixel(c, x, y).Ok? ==> res == Ok(c)
    ensures 0 < a <= Opaque && ValidColor(Color(r, g, b)) && GetPixel(c, x, y).Ok? ==>
              res.Ok? && Painted(c, res.value, x, y, BlendColor(GetPixel(c, x, y).value, Color(r, g, b), a))
  {
    var px := x * c.scale;
    var py := y * c.scale;
    BlendIdentities(if OnSurface(c, px, py) then c.pixels[py][px] else Black, Color(r, g, b));
    assert InBlock(c.scale, x, y, px, py);
    if a == 0 then
      Ok(c)
    else if a == Opaque then
      PaintBlock(c, x, y, Color(r, g, b))
    else if OnSurface(c, px, py) then
      BlendColorValid(c.pixels[py][px], Color(r, g, b), a);
      PaintBlock(c, x, y, BlendColor(c.pixels[py][px], Color(r, g, b), a))
    else
      Ok(c)
  }

  /** At zoom 1 the written and the intended `set_pixel` coincide: the defect needs a zoom of 2 or more. */
  lemma SetPixelAgreesAtScaleOne(c: Canvas, x: int, y: int, r: int, g: int, b: int, a: int)
    requires Valid(c) && c.scale == 1
    ensures SetPixel(c, x, y, r, g, b, a) == SetPixelLogical(c, x, y, r, g, b, a)
  {
  }

  /** `clear(r, g, b, a)`: fills the whole surface with one colour; `a` is ignored. */
  function Clear(c: Canvas, r: int, g: int, b: int, a: int): (res: Result<Canvas, Error>)
    requires Valid(c)
    ensures res.Err? <==> !ValidColor(Color(r, g, b))
    ensures res.Ok? ==> Valid(res.value) && res.value.scale == c.scale
    ensures res.Ok? ==> res.value.width == c.width && res.value.height == c.height
    ensures res.Ok? ==> forall py, px | OnSurface(c, px, py) :: res.value.pixels[py][px] == Color(r, g, b)
  {
    var col := Color(r, g, b);
    if !ValidColor(col) then
      Err(InvalidColor)
    else
      Ok(c.(pixels := seq(c.height, _ => seq(c.width, _ => col))))
  }

  /** After a clear, every readable logical pixel reads as the clearing colour, whatever the alpha. */
  lemma ClearReadsBack(c: Canvas, r: int, g: int, b: int, a: int, x: int, y: int)
    requires Valid(c) && ValidColor(Color(r, g, b))
    requires GetPixel(c, x, y).Ok?
    ensures GetPixel(Clear(c, r, g, b, a).value, x, y) == Ok(Color(r, g, b))
  {
  }

  /**
   `get_size` reports the physical surface, while `get_pixel` takes logical coordinates:
   with a zoom of 2 or more, a column index below the reported width is already unreadable.
   */
  lemma SizeIsPhysical(w: int, h: int, scale: int)
    requires w >= 1 && h >= 1 && scale >= 2
    ensures GetSize(Init(w, h, scale)) == (w * scale, h * scale)
    ensures w < GetSize(Init(w, h, scale)).0 && GetPixel(Init(w, h, scale), w, 0).Err?
  {
    assert w * scale >= w * 2;
  }
}

=== FILE: registry.dfy ===
/**
 The accept loop of `Canvas.serve`: every accepted connection is admitted into the
 `clients` dictionary, which is keyed by the peer's IP address alone. A second connection
 from a known address tears the old session down and hands the same `Client` record to a
 new serving task; its stored address keeps the port of the first connection.
 Sockets and tasks are abstract: a task is a number, counting the spawns so far.
 */
module Registry {
  import opened Events
  import opened Sessions

  /** A peer address as `accept` returns it. */
  datatype Addr = Addr(ip: string, port: int)

  /** A `Client` record: the address it was created with, its session, and its current serving task. */
  datatype Client = Client(addr: Addr, session: Session, task: nat)

  /** The `clients` dictionary plus the number of serving tasks spawned so far. */
  datatype Registry = Registry(clients: map<string, Client>, spawned: nat)

  /** The server before its first connection: no clients, no tasks spawned. */
  const Empty: Registry := Registry(map[], 0)

  /**
   Each client is filed under its own IP, and its task is one already spawned and no other
   client's: at most one live serving task per IP.
   */
  predicate Valid(reg: Registry) {
    && (forall ip | ip in reg.clients :: reg.clients[ip].addr.ip == ip && reg.clients[ip].task < reg.spawned)
    && (forall a, b | a in reg.clients && b in reg.clients && a != b :: reg.clients[a].task != reg.clients[b].task)
  }

  /**
   One pass of the accept loop for a connection from `addr`. A known IP has its session
   disconnected (firing `DISCONNECT` if it was live) and its old task replaced; an unknown
   IP gets a fresh record. Either way the record is then served by a newly spawned task.
   */
  function Admit(reg: Registry, table: Table, addr: Addr): (r: Registry)
    ensures r.clients.Keys == reg.clients.Keys + {addr.ip}
    ensures r.spawned == reg.spawned + 1 && r.clients[addr.ip].task == reg.spawned
    ensures !r.clients[addr.ip].session.connected
    ensures addr.ip in reg.clients ==>
              && r.clients[addr.ip].addr == reg.clients[addr.ip].addr
              && r.clients[addr.ip].session == Disconnect(reg.clients[addr.ip].session, table)
    ensures addr.ip !in reg.clients ==> r.clients[addr.ip] == Client(addr, Fresh, reg.spawned)
    ensures forall ip | ip in reg.clients && ip != addr.ip :: r.clients[ip] == reg.clients[ip]
    ensures Valid(reg) ==> Valid(r)
  {
    var client :=
      if addr.ip in reg.clients then
        var known := reg.clients[addr.ip];
        known.(session := Disconnect(known.session, table))
      else
        Client(addr, Fresh, 0);
    Registry(reg.clients[addr.ip := client.(task := reg.spawned)], reg.spawned + 1)
  }

  /** Admitting a live client's IP again fires exactly one `DISCONNECT` on its old session, and nothing on a dead one. */
  lemma ReconnectDisconnectsOnce(reg: Registry, table: Table, addr: Addr)
    requires addr.ip in reg.clients
    ensures var before := reg.clients[addr.ip].session;
            var after := Admit(reg, table, addr).clients[addr.ip].session;
            && (before.connected ==> after.log == before.log + [Fire(table, Disconnected, [])])
            && (!before.connected ==> after == before)
  {
  }

  /**
   Two connections from one IP, whatever their ports, share one record: the registry gains
   at most that one key, and the record keeps the address it was first created with.
   */
  lemma KeyedByIp(reg: Registry, table: Table, first: Addr, second: Addr)
    requires first.ip == second.ip
    ensures var r := Admit(Admit(reg, table, first), table, second);
            && r.clients.Keys == reg.clients.Keys + {first.ip}
            && r.clients[first.ip].addr == (if first.ip in reg.clients then reg.clients[first.ip].addr else first)
            && r.clients[first.ip].task == reg.spawned + 1
  {
  }

  /** The IPs a sequence of connections comes from. */
  function Ips(addrs: seq<Addr>): set<string> {
    set i | 0 <= i < |addrs| :: addrs[i].ip
  }

  /**
   The accept loop over a sequence of connections: one task spawned per connection, the
   latest connection's IP served by the newest task, and clients whose IP never connects
   again left exactly as they were.
   */
  function AdmitAll(reg: Registry, table: Table, addrs: seq<Addr>): (r: Registry)
    ensures r.spawned == reg.spawned + |addrs|
    ensures r.clients.Keys == reg.clients.Keys + Ips(addrs)
    ensures addrs != [] ==> r.clients[addrs[|addrs| - 1].ip].task == r.spawned - 1
    ensures forall ip | ip in reg.clients && ip !in Ips(addrs) :: r.clients[ip] == reg.clients[ip]
    decreases |addrs|
  {
    if addrs == [] then
      reg
    else
      IpsCons(addrs);
      assert |addrs| > 1 ==> addrs[1..][|addrs[1..]| - 1] == addrs[|addrs| - 1];
      AdmitAll(Admit(reg, table, addrs[0]), table, addrs[1..])
  }

  lemma IpsCons(addrs: seq<Addr>)
    requires addrs != []
    ensures Ips(addrs) == {addrs[0].ip} + Ips(addrs[1..])
  {
    forall ip | ip in Ips(addrs) ensures ip in {addrs[0].ip} + Ips(addrs[1..]) {
      var i :| 0 <= i < |addrs| && addrs[i].ip == ip;
      if i > 0 { assert addrs[1..][i - 1].ip == ip; }
    }
  }

  /** However many connections arrive, the registry stays valid, with one record per IP seen. */
  lemma {:induction false} AdmitAllValid(reg: Registry, table: Table, addrs: seq<Addr>)
    requires Valid(reg)
    ensures Valid(AdmitAll(reg, table, addrs))
    ensures AdmitAll(reg, table, addrs).spawned == reg.spawned + |addrs|
    ensures AdmitAll(reg, table, addrs).clients.Keys == reg.clients.Keys + Ips(addrs)
    decreases |addrs|
  {
    if addrs != [] {
      var next := Admit(reg, table, addrs[0]);
      AdmitAllValid(next, table, addrs[1..]);
      IpsCons(addrs);
    }
  }

  /**
   A server that starts with no clients and then accepts `addrs` holds exactly one valid
   record per IP seen, after spawning one task per connection.
   */
  lemma ServeFromEmpty(table: Table, addrs: seq<Addr>)
    ensures Valid(AdmitAll(Empty, table, addrs))
    ensures AdmitAll(Empty, table, addrs).clients.Keys == Ips(addrs)
    ensures AdmitAll(Empty, table, addrs).spawned == |addrs|
  {
    AdmitAllValid(Empty, table, addrs);
  }
}

=== FILE: results.dfy ===
/** Failure-carrying wrappers shared by the other modules. */
module Results {

  /** A value that may be absent; Python's `None` return in the modelled code. */
  datatype Option<+T> = None | Some(value: T)

  /** The outcome of an operation that the drawing library may reject with an exception. */
  datatype Result<+T, +E> = Ok(value: T) | Err(error: E)
}

=== FILE: seqs.dfy ===
/** Facts about sequences, proved once in a context of their own. */
module Seqs {

  lemma Associative<T>(a: seq<T>, b: seq<T>, c: seq<T>)
    ensures (a + b) + c == a + (b + c)
  {
  }

  /** A non-empty sequence is its head followed by its tail. */
  lemma HeadTail<T>(s: seq<T>)
    requires s != []
    ensures [s[0]] + s[1..] == s
  {
  }
}

=== FILE: sessions.dfy ===
/**
 One client connection (`Client`): its socket state, the events fired on its behalf, and
 the protocol loop of `Client.serve`.

 The loop is modelled over the bytes the client has sent, supplied as a string: each
 `readline(1600)` takes the next line (or the next 1600 bytes of a longer one), and at end
 of stream it yields the empty string. Reads keep returning the buffered input after the
 session disconnects, since the file object made from the socket still holds it.
 */
module Sessions {
  import opened Text
  import opened Events
  import opened Seqs

  /** The byte bound passed to every `readline`. */
  const MaxLine: nat := 1600

  /** The number of lines one burst reads at most (`range(10)`). */
  const MaxBurst: nat := 10

  const CommandPrefix: string := "COMMAND-"
  const Connected: string := "CONNECT"
  const Disconnected: string := "DISCONNECT"

  /** A client: whether it holds a socket, the events fired for it, and the lines written to its socket. */
  datatype Session = Session(connected: bool, log: seq<Dispatch>, sent: seq<string>)

  /** `Client.__init__`: no socket yet. */
  const Fresh: Session := Session(false, [], [])

  /** `send(line)`: writes the line and a newline while a socket is present, and is silently dropped otherwise. */
  function Send(s: Session, line: string): (r: Session)
    ensures r.connected == s.connected && r.log == s.log
    ensures s.connected ==> r.sent == s.sent + [line + "\n"]
    ensures !s.connected ==> r == s
  {
    if s.connected then s.(sent := s.sent + [line + "\n"]) else s
  }

  /**
   `disconnect()`: when a socket is present it is cleared (and closed) and only then is
   `DISCONNECT` fired; without a socket nothing happens.
   */
  function Disconnect(s: Session, table: Table): (r: Session)
    ensures !r.connected && r.sent == s.sent
    ensures s.connected ==> r.log == s.log + [Fire(table, Disconnected, [])]
    ensures !s.connected ==> r == s
  {
    if s.connected then Session(false, s.log + [Fire(table, Disconnected, [])], s.sent) else s
  }

  /** A second `disconnect` does nothing, whatever the event table is by then. */
  lemma DisconnectIdempotent(s: Session, table: Table, later: Table)
    ensures Disconnect(Disconnect(s, table), later) == Disconnect(s, table)
  {
  }

  /** A `send` after `disconnect` writes nothing and changes nothing. */
  lemma SendAfterDisconnect(s: Session, table: Table, line: string)
    ensures Send(Disconnect(s, table), line) == Disconnect(s, table)
  {
  }

  /** A new client has no socket: until `serve` attaches one, `send` and `disconnect` do nothing. */
  lemma FreshClientIsSilent(table: Table, line: string)
    ensures !Fresh.connected && Fresh.log == [] && Fresh.sent == []
    ensures Send(Fresh, line) == Fresh && Disconnect(Fresh, table) == Fresh
  {
  }

  predicate IsCommand(name: string) {
    |name| >= |CommandPrefix| && name[..|CommandPrefix|] == CommandPrefix
  }

  /** The protocol commands dispatched in `log`, in order. */
  function Commands(log: seq<Dispatch>): seq<Call>
    decreases |log|
  {
    if log == [] then [] else (if IsCommand(log[0].call.name) then [log[0].call] else []) + Commands(log[1..])
  }

  lemma {:induction false} CommandsAppend(a: seq<Dispatch>, b: seq<Dispatch>)
    ensures Commands(a + b) == Commands(a) + Commands(b)
    decreases |a|
  {
    if a == [] {
      assert a + b == b;
    } else {
      assert (a + b)[1..] == a[1..] + b;
      CommandsAppend(a[1..], b);
      Associative((if IsCommand(a[0].call.name) then [a[0].call] else []), Commands(a[1..]), Commands(b));
    }
  }

  /** Counting and collecting commands both distribute over appending logs. */
  lemma LogAppend(a: seq<Dispatch>, b: seq<Dispatch>, name: string)
    ensures Count(a + b, name) == Count(a, name) + Count(b, name)
    ensures Commands(a + b) == Commands(a) + Commands(b)
  {
    CountAppend(a, b, name);
    CommandsAppend(a, b);
  }

  /** The call a non-blank stripped line dispatches: `COMMAND-` + its upper-cased first word, with the other words as arguments. */
  function CommandOf(line: string): (call: Call)
    requires !AllSpace(line)
    ensures IsCommand(call.name)
  {
    var tokens := Split(line);
    var name := CommandPrefix + Upper(tokens[0]);
    assert name[..|CommandPrefix|] == CommandPrefix;
    Call(name, tokens[1..])
  }

  /**
   A read made of words with any whitespace between and around them dispatches its first
   word, upper-cased and prefixed, with the other words as arguments; the stripping before
   the split does not change that.
   */
  lemma CommandOfWords(gaps: seq<string>, words: seq<string>)
    requires words != [] && Words(words) && |gaps| == |words| + 1 && Gaps(gaps)
    ensures !AllSpace(Layout(gaps, words))
    ensures CommandOf(Layout(gaps, words)) == Call(CommandPrefix + Upper(words[0]), words[1..])
    ensures CommandsOf([Layout(gaps, words)]) == [Call(CommandPrefix + Upper(words[0]), words[1..])]
  {
    var line := Layout(gaps, words);
    SplitLayout(gaps, words);
    CommandOfStripped(line);
  }

  /** A read with a tab, a run of spaces and the final newline dispatches `COMMAND-PX` with two arguments. */
  lemma CommandOfTabs()
    ensures CommandsOf(["px\t1  2\n"]) == [Call("COMMAND-PX", ["1", "2"])]
  {
    var gaps := ["", "\t", "  ", "\n"];
    var words := ["px", "1", "2"];
    TabsLayout(gaps, words);
    CommandOfWords(gaps, words);
    PxCall(words);
  }

  lemma PxCall(words: seq<string>)
    requires words == ["px", "1", "2"]
    ensures Call(CommandPrefix + Upper(words[0]), words[1..]) == Call("COMMAND-PX", ["1", "2"])
  {
    assert Upper("px") == "PX";
  }

  lemma TabsLayout(gaps: seq<string>, words: seq<string>)
    requires gaps == ["", "\t", "  ", "\n"] && words == ["px", "1", "2"]
    ensures Gaps(gaps) && Words(words) && Layout(gaps, words) == "px\t1  2\n"
  {
    assert gaps[1..][1..][1..] == ["\n"] && words[1..][1..][1..] == [];
    assert Layout(["\n"], []) == "\n";
    assert Layout(["  ", "\n"], ["2"]) == "  2\n";
    assert Layout(["\t", "  ", "\n"], ["1", "2"]) == "\t1  2\n";
  }

  /** A non-blank read dispatches the same command whether or not it is stripped first. */
  lemma CommandOfStripped(line: string)
    requires !AllSpace(line)
    ensures CommandsOf([line]) == [CommandOf(line)]
  {
    CommandsOfOne(line);
    SplitStrip(line);
    CommandOfSplit(Strip(line), line);
  }

  lemma CommandsOfOne(line: string)
    requires !AllSpace(line)
    ensures CommandsOf([line]) == [CommandOf(Strip(line))]
  {
    var one: seq<string> := [line];
    assert one[1..] == [];
  }

  /** The command of a line depends only on its words. */
  lemma CommandOfSplit(a: string, b: string)
    requires Split(a) != [] && Split(a) == Split(b)
    ensures !AllSpace(a) && !AllSpace(b) && CommandOf(a) == CommandOf(b)
  {
  }

  /** `fire` on `table` is truthy for every command in `calls`: each has a handler that returns normally. */
  predicate AllHandled(table: Table, calls: seq<Call>) {
    forall k | 0 <= k < |calls| :: calls[k].name in table && !table[calls[k].name].raises
  }

  lemma AllHandledAppend(table: Table, a: seq<Call>, b: seq<Call>)
    ensures AllHandled(table, a + b) <==> AllHandled(table, a) && AllHandled(table, b)
  {
    if AllHandled(table, a + b) {
      forall k | 0 <= k < |a| ensures a[k].name in table && !table[a[k].name].raises {
        assert (a + b)[k] == a[k];
      }
      forall k | 0 <= k < |b| ensures b[k].name in table && !table[b[k].name].raises {
        assert (a + b)[|a| + k] == b[k];
      }
    }
  }

  /** A single command is handled exactly when firing it is truthy. */
  lemma HandledOne(table: Table, call: Call)
    ensures AllHandled(table, [call]) <==> Fire(table, call.name, call.args).ok
  {
    assert [call][0] == call;
  }

  /**
   The loop body for one non-blank line: fire its command on `table`, and when that is
   falsy (no handler, or one that raised) call `disconnect`, which fires `DISCONNECT` only
   if the socket was still there. Also yields what it fired.
   */
  function DispatchLine(s: Session, table: Table, line: string): (r: (Session, seq<Dispatch>))
    requires !AllSpace(line)
    ensures r.0.log == s.log + r.1 && r.0.sent == s.sent
    ensures |r.1| >= 1 && r.1[0] == Fire(table, CommandOf(line).name, CommandOf(line).args)
    ensures r.0.connected <==> s.connected && CommandOf(line).name in table && !table[CommandOf(line).name].raises
    ensures r.1[1..] == (if s.connected && !r.0.connected then [Fire(table, Disconnected, [])] else [])
  {
    var call := CommandOf(line);
    var d := Fire(table, call.name, call.args);
    var s1 := s.(log := s.log + [d]);
    var one: seq<Dispatch> := [d];
    assert one[1..] == [];
    if d.ok then
      (s1, one)
    else if !s.connected then
      (Disconnect(s1, table), one)
    else
      var bye := Fire(table, Disconnected, []);
      Associative(s.log, [d], [bye]);
      var two: seq<Dispatch> := [d, bye];
      assert two[1..] == [bye];
      (Disconnect(s1, table), two)
  }

  /** `lines` are the results of consecutive `readline(1600)` calls on `stream`, leaving `rest` unread. */
  predicate ReadsOf(stream: string, lines: seq<string>, rest: string)
    decreases |lines|
  {
    if lines == [] then
      rest == stream
    else
      lines[0] == ReadLine(stream, MaxLine).0 && ReadsOf(ReadLine(stream, MaxLine).1, lines[1..], rest)
  }

  /** The commands a sequence of lines should dispatch: one per non-blank read, in order. */
  function CommandsOf(lines: seq<string>): seq<Call>
    decreases |lines|
  {
    if lines == [] then
      []
    else
      (if AllSpace(lines[0]) then [] else [CommandOf(Strip(lines[0]))]) + CommandsOf(lines[1..])
  }

  /** A blank line dispatches nothing. */
  lemma CommandsOfBlank(lines: seq<string>)
    requires lines != [] && AllSpace(lines[0])
    ensures CommandsOf(lines) == CommandsOf(lines[1..])
  {
    assert [] + CommandsOf(lines[1..]) == CommandsOf(lines[1..]);
  }

  /** A burst's outcome: the session after it, the raw lines, the dispatches it made, and the unread input. */
  datatype Burst = Burst(session: Session, lines: seq<string>, fired: seq<Dispatch>, rest: string)

  /** Every record in `fired` is what `fire` returns on `table`, for a protocol command or for `DISCONNECT` with no arguments. */
  predicate FiredFrom(table: Table, fired: seq<Dispatch>) {
    forall i | 0 <= i < |fired| ::
      && fired[i] == Fire(table, fired[i].call.name, fired[i].call.args)
      && (IsCommand(fired[i].call.name) || fired[i].call == Call(Disconnected, []))
  }

  lemma FiredFromAppend(table: Table, a: seq<Dispatch>, b: seq<Dispatch>)
    requires FiredFrom(table, a) && FiredFrom(table, b)
    ensures FiredFrom(table, a + b)
  {
    forall i | 0 <= i < |a + b|
      ensures (a + b)[i] == Fire(table, (a + b)[i].call.name, (a + b)[i].call.args)
      ensures IsCommand((a + b)[i].call.name) || (a + b)[i].call == Call(Disconnected, [])
    {
      if i >= |a| { assert (a + b)[i] == b[i - |a|]; }
    }
  }

  /** Every `fire` in `fired` was truthy. */
  predicate AllOk(fired: seq<Dispatch>) {
    forall j | 0 <= j < |fired| :: fired[j].ok
  }

  /** A `DISCONNECT` in `fired` comes right after the first falsy record: the one before it is falsy and all earlier ones are truthy. */
  predicate ByeAfterFalsy(fired: seq<Dispatch>) {
    forall i | 0 <= i < |fired| && fired[i].call.name == Disconnected ::
      0 < i && !fired[i - 1].ok && forall j | 0 <= j < i - 1 :: fired[j].ok
  }

  lemma AllOkAppend(a: seq<Dispatch>, b: seq<Dispatch>)
    requires AllOk(a) && AllOk(b)
    ensures AllOk(a + b)
  {
    forall j | 0 <= j < |a + b| ensures (a + b)[j].ok {
      if j >= |a| { assert (a + b)[j] == b[j - |a|]; }
    }
  }

  /** A log with a record of `name` at `i` counts `name` at least once. */
  lemma CountHas(log: seq<Dispatch>, name: string, i: nat)
    requires i < |log| && log[i].call.name == name
    ensures Count(log, name) > 0
  {
    assert log == log[..i] + ([log[i]] + log[i + 1..]);
    CountAppend(log[..i], [log[i]] + log[i + 1..], name);
    CountAppend([log[i]], log[i + 1..], name);
  }

  /** Two runs, the first all truthy unless the second has no `DISCONNECT`, keep `DISCONNECT` right after the first falsy record. */
  lemma ByeAfterFalsyAppend(a: seq<Dispatch>, b: seq<Dispatch>)
    requires ByeAfterFalsy(a) && ByeAfterFalsy(b)
    requires Count(b, Disconnected) == 0 || AllOk(a)
    ensures ByeAfterFalsy(a + b)
  {
    var f := a + b;
    assert forall j | 0 <= j < |a| :: f[j] == a[j];
    assert forall j | |a| <= j < |f| :: f[j] == b[j - |a|];
    forall i | 0 <= i < |f| && f[i].call.name == Disconnected
      ensures 0 < i && !f[i - 1].ok && forall j | 0 <= j < i - 1 :: f[j].ok
    {
      if i >= |a| {
        CountHas(b, Disconnected, i - |a|);
      }
    }
  }

  /**
   What dispatching `calls` on `table` does to a session: it appends exactly `fired` to the
   log and sends nothing; every record is `fire`'s answer from `table`; the commands among
   them are `calls`, in order, and the only other event is `DISCONNECT`; a closed session
   stays closed; a live one stays live exactly when every command has a handler that
   returns normally, in which case every record is truthy, and otherwise fires
   `DISCONNECT` once, right after the first falsy command.
   */
  predicate Dispatched(before: Session, after: Session, table: Table, fired: seq<Dispatch>, calls: seq<Call>) {
    && after.log == before.log + fired
    && after.sent == before.sent
    && FiredFrom(table, fired)
    && Commands(fired) == calls
    && (!before.connected ==> !after.connected)
    && (before.connected ==> (after.connected <==> AllHandled(table, calls)))
    && (before.connected && after.connected ==> AllOk(fired))
    && Count(fired, Disconnected) == (if before.connected && !after.connected then 1 else 0)
    && ByeAfterFalsy(fired)
  }

  /** Nothing dispatched, nothing changed. */
  lemma DispatchedNothing(s: Session, table: Table)
    ensures Dispatched(s, s, table, [], [])
  {
  }

  /** Two dispatch runs one after the other form one run. */
  lemma DispatchedThen(s: Session, mid: Session, after: Session, table: Table, f1: seq<Dispatch>, f2: seq<Dispatch>, c1: seq<Call>, c2: seq<Call>, c: seq<Call>)
    requires Dispatched(s, mid, table, f1, c1) && Dispatched(mid, after, table, f2, c2)
    requires c == c1 + c2
    ensures Dispatched(s, after, table, f1 + f2, c)
  {
    Associative(s.log, f1, f2);
    LogAppend(f1, f2, Disconnected);
    FiredFromAppend(table, f1, f2);
    AllHandledAppend(table, c1, c2);
    ByeAfterFalsyAppend(f1, f2);
    if s.connected && after.connected {
      AllOkAppend(f1, f2);
    }
  }

  /** A single line fires its command on `table`, then `DISCONNECT` when that was falsy on a live session. */
  lemma DispatchLineFacts(s: Session, table: Table, line: string)
    requires !AllSpace(line)
    ensures var (r, now) := DispatchLine(s, table, line); Dispatched(s, r, table, now, [CommandOf(line)])
  {
    var call := CommandOf(line);
    var (r, now) := DispatchLine(s, table, line);
    HandledOne(table, call);
    FiredCommand(table, call);
    if s.connected && !r.connected {
      var bye := Fire(table, Disconnected, []);
      assert now == [now[0]] + [bye];
      FiredDisconnect(table);
      LogAppend([now[0]], [bye], Disconnected);
      FiredFromAppend(table, [now[0]], [bye]);
      assert ByeAfterFalsy(now) by {
        assert now[0].call.name != Disconnected;
      }
    } else {
      assert now == [now[0]];
    }
  }

  /** Firing one command records it as that command, from `table`, and not as `DISCONNECT`. */
  lemma FiredCommand(table: Table, call: Call)
    requires IsCommand(call.name)
    ensures var d := Fire(table, call.name, call.args);
            && FiredFrom(table, [d]) && Commands([d]) == [call] && Count([d], Disconnected) == 0
            && ByeAfterFalsy([d]) && (d.ok ==> AllOk([d]))
  {
    assert !IsCommand(Disconnected) by { assert Disconnected[..|CommandPrefix|][0] != CommandPrefix[0]; }
  }

  /** Firing `DISCONNECT` records one `DISCONNECT`, from `table`, and no command. */
  lemma FiredDisconnect(table: Table)
    ensures var bye := Fire(table, Disconnected, []);
            FiredFrom(table, [bye]) && Commands([bye]) == [] && Count([bye], Disconnected) == 1
  {
    assert !IsCommand(Disconnected) by { assert Disconnected[..|CommandPrefix|][0] != CommandPrefix[0]; }
  }

  /** The unread input split into the lines one burst reads and what is left. */
  datatype Reads = Reads(lines: seq<string>, rest: string)

  /**
   `lines` is what a burst with `budget` iterations reads from `stream`, leaving `rest`:
   consecutive bounded reads, at most `budget` of them and at least one if any iteration
   is left, all non-blank except possibly the last, and a blank last one whenever the
   burst stopped early.
   */
  predicate ReadRun(stream: string, budget: nat, lines: seq<string>, rest: string) {
    && |lines| <= budget
    && (budget > 0 ==> |lines| > 0)
    && ReadsOf(stream, lines, rest)
    && (forall k | 0 <= k < |lines| - 1 :: !AllSpace(lines[k]))
    && (|lines| < budget ==> |lines| > 0 && AllSpace(lines[|lines| - 1]))
  }

  /** A blank read ends the burst. */
  lemma ReadRunStop(stream: string, budget: nat)
    requires budget > 0 && AllSpace(ReadLine(stream, MaxLine).0)
    ensures ReadRun(stream, budget, [ReadLine(stream, MaxLine).0], ReadLine(stream, MaxLine).1)
  {
    var read := ReadLine(stream, MaxLine);
    var lines := [read.0];
    assert lines[1..] == [];
  }

  /** A non-blank read is followed by the rest of the burst, with one iteration fewer. */
  lemma ReadRunCons(stream: string, budget: nat, more: seq<string>, rest: string)
    requires budget > 0 && !AllSpace(ReadLine(stream, MaxLine).0)
    requires ReadRun(ReadLine(stream, MaxLine).1, budget - 1, more, rest)
    ensures ReadRun(stream, budget, [ReadLine(stream, MaxLine).0] + more, rest)
  {
    var lines := [ReadLine(stream, MaxLine).0] + more;
    assert lines[1..] == more;
    assert forall k | 1 <= k < |lines| :: lines[k] == more[k - 1];
  }

  /**
   The reading side of the `for` loop with `budget` iterations left: consecutive
   `readline(1600)` results, stopping after the first one that is blank once stripped
   (which includes the empty read at end of stream).
   */
  function ReadLines(stream: string, budget: nat): (r: Reads)
    ensures ReadRun(stream, budget, r.lines, r.rest)
    decreases budget
  {
    if budget == 0 then
      Reads([], stream)
    else
      var read := ReadLine(stream, MaxLine);
      if Strip(read.0) == [] then
        ReadRunStop(stream, budget);
        Reads([read.0], read.1)
      else
        var r := ReadLines(read.1, budget - 1);
        ReadRunCons(stream, budget, r.lines, r.rest);
        Reads([read.0] + r.lines, r.rest)
  }

  /** At end of stream a burst reads one empty line. */
  lemma ReadLinesAtEnd(budget: nat)
    requires budget > 0
    ensures ReadLines([], budget) == Reads([[]], [])
  {
    assert ReadLine([], MaxLine) == ([], []);
    assert Strip([]) == [];
  }

  /**
   The dispatching side of the `for` loop: every non-blank line fires its command, and a
   falsy dispatch disconnects the session without stopping the loop. A live session ends
   disconnected exactly when some command lacked a handler that returns normally, having
   fired `DISCONNECT` once.
   */
  function DispatchAll(s: Session, table: Table, lines: seq<string>): (r: (Session, seq<Dispatch>))
    ensures Dispatched(s, r.0, table, r.1, CommandsOf(lines))
    decreases |lines|
  {
    if lines == [] then
      DispatchedNothing(s, table);
      (s, [])
    else
      var line := Strip(lines[0]);
      if line == [] then
        CommandsOfBlank(lines);
        DispatchAll(s, table, lines[1..])
      else
        var first := DispatchLine(s, table, line);
        var r := DispatchAll(first.0, table, lines[1..]);
        DispatchLineFacts(s, table, line);
        DispatchedThen(s, first.0, r.0, table, first.1, r.1, [CommandOf(line)], CommandsOf(lines[1..]), CommandsOf(lines));
        (r.0, first.1 + r.1)
  }

  /**
   One pass of the `for` loop: one to ten reads, the commands of the non-blank ones
   dispatched in order on `table`, and the session disconnected (with one `DISCONNECT`)
   exactly when one of them had no handler or a raising one. Reading does not depend on
   what the handlers do, so the reads and the dispatches are computed one after the other.
   */
  function ReadBurst(s: Session, table: Table, stream: string): (r: Burst)
    ensures ReadRun(stream, MaxBurst, r.lines, r.rest)
    ensures Dispatched(s, r.session, table, r.fired, CommandsOf(r.lines))
  {
    var rd := ReadLines(stream, MaxBurst);
    var (after, fired) := DispatchAll(s, table, rd.lines);
    Burst(after, rd.lines, fired, rd.rest)
  }

  /** At end of stream a burst reads one empty line, fires nothing and leaves the session as it was. */
  lemma BurstAtEnd(s: Session, table: Table)
    ensures ReadBurst(s, table, []) == Burst(s, [[]], [], [])
  {
    ReadLinesAtEnd(MaxBurst);
    var blank: seq<string> := [[]];
    assert blank[1..] == [];
    assert DispatchAll(s, table, blank) == (s, []);
  }

  /** A run of reads is its first read followed by a run from what that read left. */
  lemma ReadsOfCons(stream: string, lines: seq<string>, rest: string)
    requires lines != []
    ensures ReadsOf(stream, lines, rest) <==>
              lines[0] == ReadLine(stream, MaxLine).0 && ReadsOf(ReadLine(stream, MaxLine).1, lines[1..], rest)
  {
  }

  /** Consecutive runs of reads form one run. */
  lemma {:induction false} ReadsOfAppend(stream: string, a: seq<string>, mid: string, b: seq<string>, rest: string)
    requires ReadsOf(stream, a, mid) && ReadsOf(mid, b, rest)
    ensures ReadsOf(stream, a + b, rest)
    decreases |a|
  {
    if a == [] {
      assert a + b == b;
    } else {
      var more := ReadLine(stream, MaxLine).1;
      ReadsOfCons(stream, a, mid);
      ReadsOfAppend(more, a[1..], mid, b, rest);
      assert (a + b)[0] == a[0] && (a + b)[1..] == a[1..] + b;
      ReadsOfCons(stream, a + b, rest);
    }
  }

  lemma {:induction false} CommandsOfAppend(a: seq<string>, b: seq<string>)
    ensures CommandsOf(a + b) == CommandsOf(a) + CommandsOf(b)
    decreases |a|
  {
    if a == [] {
      assert a + b == b;
    } else {
      assert (a + b)[1..] == a[1..] + b;
      assert (a + b)[0] == a[0];
      CommandsOfAppend(a[1..], b);
      Associative((if AllSpace(a[0]) then [] else [CommandOf(Strip(a[0]))]), CommandsOf(a[1..]), CommandsOf(b));
    }
  }

  /**
   Where the protocol loop stands: the session, the bursts run so far, the raw lines they
   read, the events fired since it started, the unread input, and whether
   `while self.socket` has exited and `finally` has run.
   */
  datatype Served = Served(session: Session, rounds: seq<Burst>, lines: seq<string>, fired: seq<Dispatch>, rest: string, finished: bool)

  /**
   `rounds` are consecutive passes of the `while self.socket` body from `s` on `stream`:
   each starts on a live session, reads as `ReadRun` describes (one to ten reads, stopping
   early only at a blank one) from what the previous pass left, and dispatches the
   commands of its non-blank reads on `table` as `Dispatched` describes.
   */
  predicate Rounds(s: Session, table: Table, stream: string, rounds: seq<Burst>)
    decreases |rounds|
  {
    rounds != [] ==>
      && s.connected
      && ReadRun(stream, MaxBurst, rounds[0].lines, rounds[0].rest)
      && Dispatched(s, rounds[0].session, table, rounds[0].fired, CommandsOf(rounds[0].lines))
      && Rounds(rounds[0].session, table, rounds[0].rest, rounds[1..])
  }

  /** The lines the rounds read, in order. */
  function LinesOf(rounds: seq<Burst>): seq<string>
    decreases |rounds|
  {
    if rounds == [] then [] else rounds[0].lines + LinesOf(rounds[1..])
  }

  /** The events the rounds fired, in order. */
  function FiredOf(rounds: seq<Burst>): seq<Dispatch>
    decreases |rounds|
  {
    if rounds == [] then [] else rounds[0].fired + FiredOf(rounds[1..])
  }

  /** `session` and `rest` are where the rounds left off: the last round's, or the start when there was none. */
  predicate Ended(s: Session, stream: string, rounds: seq<Burst>, session: Session, rest: string) {
    if rounds == [] then session == s && rest == stream
    else session == rounds[|rounds| - 1].session && rest == rounds[|rounds| - 1].rest
  }

  /**
   What `ticks` rounds of the loop did, starting from `s` on `stream`: a chain of passes as
   `Rounds` describes, one per round until the socket is gone, ending where the last one
   left off; all the reads together are consecutive, and the commands of the non-blank
   reads are dispatched on `table` as `Dispatched` describes; the loop finished exactly
   when the socket is gone.
   */
  predicate LoopRan(s: Session, table: Table, stream: string, ticks: nat, r: Served) {
    && Rounds(s, table, stream, r.rounds)
    && r.lines == LinesOf(r.rounds)
    && r.fired == FiredOf(r.rounds)
    && Ended(s, stream, r.rounds, r.session, r.rest)
    && |r.rounds| <= ticks
    && (!r.finished ==> |r.rounds| == ticks)
    && ReadsOf(stream, r.lines, r.rest)
    && |r.lines| <= MaxBurst * ticks
    && (!r.finished ==> ticks <= |r.lines|)
    && Dispatched(s, r.session, table, r.fired, CommandsOf(r.lines))
    && (r.finished <==> !r.session.connected)
  }

  /**
   The `while self.socket` loop with `ticks` scheduling rounds left, followed by the
   `finally: disconnect()`; a loop still running when the rounds run out is unfinished.
   On a live session it finishes exactly when some command it read has no handler, or one
   that raises; on a closed one it does nothing and finishes at once.
   */
  function Loop(s: Session, table: Table, stream: string, ticks: nat): (r: Served)
    ensures LoopRan(s, table, stream, ticks, r)
    ensures s.connected ==> (r.finished <==> !AllHandled(table, CommandsOf(r.lines)))
    ensures !s.connected ==> r == Served(s, [], [], [], stream, true)
    decreases ticks
  {
    if !s.connected then
      DispatchedNothing(s, table);
      Served(Disconnect(s, table), [], [], [], stream, true)
    else if ticks == 0 then
      DispatchedNothing(s, table);
      Served(s, [], [], [], stream, false)
    else
      var b := ReadBurst(s, table, stream);
      var r := Loop(b.session, table, b.rest, ticks - 1);
      LoopStep(s, table, stream, ticks, b, r);
      Served(r.session, [b] + r.rounds, b.lines + r.lines, b.fired + r.fired, r.rest, r.finished)
  }

  /** A burst on a live session followed by the rest of the loop is a run of the loop. */
  lemma LoopStep(s: Session, table: Table, stream: string, ticks: nat, b: Burst, r: Served)
    requires s.connected && ticks > 0
    requires ReadRun(stream, MaxBurst, b.lines, b.rest)
    requires Dispatched(s, b.session, table, b.fired, CommandsOf(b.lines))
    requires LoopRan(b.session, table, b.rest, ticks - 1, r)
    ensures LoopRan(s, table, stream, ticks, Served(r.session, [b] + r.rounds, b.lines + r.lines, b.fired + r.fired, r.rest, r.finished))
  {
    RoundsStep(s, table, stream, b, r.rounds, r.session, r.rest);
    ReadsOfAppend(stream, b.lines, b.rest, r.lines, r.rest);
    CommandsOfAppend(b.lines, r.lines);
    DispatchedThen(s, b.session, r.session, table, b.fired, r.fired, CommandsOf(b.lines), CommandsOf(r.lines), CommandsOf(b.lines + r.lines));
  }

  /** A pass on a live session followed by a chain of passes from where it left off is a chain of passes. */
  lemma RoundsStep(s: Session, table: Table, stream: string, b: Burst, rounds: seq<Burst>, session: Session, rest: string)
    requires s.connected
    requires ReadRun(stream, MaxBurst, b.lines, b.rest)
    requires Dispatched(s, b.session, table, b.fired, CommandsOf(b.lines))
    requires Rounds(b.session, table, b.rest, rounds) && Ended(b.session, b.rest, rounds, session, rest)
    ensures Rounds(s, table, stream, [b] + rounds)
    ensures LinesOf([b] + rounds) == b.lines + LinesOf(rounds)
    ensures FiredOf([b] + rounds) == b.fired + FiredOf(rounds)
    ensures Ended(s, stream, [b] + rounds, session, rest)
  {
    var all := [b] + rounds;
    assert all[0] == b && all[1..] == rounds;
    assert all[|all| - 1] == if rounds == [] then b else rounds[|rounds| - 1];
  }

  /**
   `Client.serve(socket)`: fires `CONNECT` while the client still has no socket, attaches
   the socket and runs the loop. After `CONNECT` the record is a run of the loop on a live
   session: the reads are consecutive, at most ten per round; the commands fired are those
   of the non-blank reads; and the loop finishes, firing `DISCONNECT` exactly once, exactly
   when one of those commands had no handler or a raising one.
   */
  function Serve(s: Session, table: Table, stream: string, ticks: nat): (r: Served)
    ensures |r.fired| > 0 && r.fired[0] == Fire(table, Connected, [])
    ensures r.session.log == s.log + r.fired && r.session.sent == s.sent
    ensures LoopRan(Session(true, s.log + [r.fired[0]], s.sent), table, stream, ticks, r.(fired := r.fired[1..]))
    ensures Commands(r.fired) == CommandsOf(r.lines)
    ensures r.finished <==> !AllHandled(table, CommandsOf(r.lines))
    ensures Count(r.fired, Disconnected) == (if r.finished then 1 else 0)
  {
    var hello := Fire(table, Connected, []);
    var s1 := Session(true, s.log + [hello], s.sent);
    var r := Loop(s1, table, stream, ticks);
    var fired := [hello] + r.fired;
    assert fired[1..] == r.fired;
    Associative(s.log, [hello], r.fired);
    LogAppend([hello], r.fired, Disconnected);
    assert !IsCommand(Connected);
    assert Commands([hello]) == [];
    Served(r.session, r.rounds, r.lines, fired, r.rest, r.finished)
  }

  /**
   At end of stream every read is empty, so each burst stops at once and the session is
   never torn down: the loop idles until the task is killed from outside.
   */
  lemma {:induction false} IdleAtEndOfStream(s: Session, table: Table, ticks: nat)
    requires s.connected
    ensures Loop(s, table, [], ticks) == Served(s, Idle(s, ticks), Blanks(ticks), [], [], false)
    decreases ticks
  {
    if ticks == 0 {
      NoRoundsLeft(s, table, []);
    } else {
      IdleAtEndOfStream(s, table, ticks - 1);
      IdleOneMore(s, table, ticks);
    }
  }

  /** With no rounds left a live loop reads nothing, fires nothing and is unfinished. */
  lemma NoRoundsLeft(s: Session, table: Table, stream: string)
    requires s.connected
    ensures Loop(s, table, stream, 0) == Served(s, [], [], [], stream, false)
  {
  }

  /** `n` passes that each read one empty line and fire nothing on `s`. */
  function Idle(s: Session, n: nat): seq<Burst>
    decreases n
  {
    if n == 0 then [] else [Burst(s, [[]], [], [])] + Idle(s, n - 1)
  }

  /** `n` empty reads. */
  function Blanks(n: nat): seq<string>
    decreases n
  {
    if n == 0 then [] else [[]] + Blanks(n - 1)
  }

  /** One more round of the loop at end of stream reads one more empty line and changes nothing else. */
  lemma IdleOneMore(s: Session, table: Table, ticks: nat)
    requires s.connected && ticks > 0
    requires Loop(s, table, [], ticks - 1) == Served(s, Idle(s, ticks - 1), Blanks(ticks - 1), [], [], false)
    ensures Loop(s, table, [], ticks) == Served(s, Idle(s, ticks), Blanks(ticks), [], [], false)
  {
    BurstAtEnd(s, table);
    var none: seq<Dispatch> := [];
    assert none + none == none;
  }
}

=== FILE: size_arg.dfy ===
/**
 The `--size` option: the argument must match `^(\d+)x(\d+)$` (Python `re`, byte-string
 pattern, so `\d` is an ASCII digit and `$` also matches just before one final newline);
 the two digit runs are read as decimal integers, leading zeros allowed. Anything else is
 rejected, which makes the option parser exit with an error.
 */
module SizeArg {
  import opened Results

  predicate IsDigit(c: char) {
    '0' <= c <= '9'
  }

  predicate AllDigits(s: string) {
    forall i | 0 <= i < |s| :: IsDigit(s[i])
  }

  /** `\d+`: a non-empty run of digits. */
  predicate Digits(s: string) {
    s != [] && AllDigits(s)
  }

  /** `int(s)` on a string of digits. */
  function Decimal(s: string): nat
    requires AllDigits(s)
    decreases |s|
  {
    if s == [] then 0 else Decimal(s[..|s| - 1]) * 10 + (s[|s| - 1] as int - '0' as int)
  }

  /**
   The regular expression's meaning: `arg` is two digit runs around an `x`, optionally
   followed by a single newline; `width` and `height` are the groups.
   */
  predicate Matches(arg: string, width: string, height: string) {
    Digits(width) && Digits(height) && (arg == width + "x" + height || arg == width + "x" + height + "\n")
  }

  /** The length of the digit run that `arg` starts with. */
  function DigitRun(arg: string): (n: nat)
    ensures n <= |arg| && AllDigits(arg[..n])
    ensures n == |arg| || !IsDigit(arg[n])
    decreases |arg|
  {
    if arg != [] && IsDigit(arg[0]) then
      var n := 1 + DigitRun(arg[1..]);
      assert forall i | 1 <= i < n :: arg[..n][i] == arg[1..][..n - 1][i - 1];
      n
    else
      0
  }

  /** The two groups of a match, found by scanning: `None` when the pattern does not match. */
  function Groups(arg: string): (r: Option<(string, string)>)
    ensures r.Some? ==> Matches(arg, r.value.0, r.value.1)
  {
    var body := if arg != [] && arg[|arg| - 1] == '\n' then arg[..|arg| - 1] else arg;
    var n := DigitRun(body);
    if n == 0 || n == |body| || body[n] != 'x' then
      None
    else
      var height := body[n + 1..];
      if height == [] || !AllDigits(height) then
        None
      else
        var width := body[..n];
        assert body == width + "x" + height;
        assert arg == body || arg == body + "\n";
        Some((width, height))
  }

  /** The groups are determined by the argument: every way of matching it is the one `Groups` finds. */
  lemma GroupsComplete(arg: string, width: string, height: string)
    requires Matches(arg, width, height)
    ensures Groups(arg) == Some((width, height))
  {
    var body := width + "x" + height;
    assert arg == body || arg == body + "\n";
    if arg == body + "\n" {
      assert arg[..|arg| - 1] == body;
    }
    assert body[|body| - 1] == height[|height| - 1];
    assert body[..|width|] == width;
    assert !IsDigit(body[|width|]);
    DigitRunStops(body, |width|);
    assert body[|width| + 1..] == height;
  }

  /** A digit run that ends at a non-digit is found exactly. */
  lemma {:induction false} DigitRunStops(s: string, n: nat)
    requires n < |s| && AllDigits(s[..n]) && !IsDigit(s[n])
    ensures DigitRun(s) == n
    decreases n
  {
    if n > 0 {
      assert IsDigit(s[..n][0]);
      assert s[1..][..n - 1] == s[..n][1..];
      DigitRunStops(s[1..], n - 1);
    }
  }

  /** The parsed size `(width, height)`, or `None` when the option parser would reject the argument. */
  function ParseSize(arg: string): (r: Option<(nat, nat)>)
    ensures r.Some? <==> exists width, height :: Matches(arg, width, height)
    ensures forall width, height | Matches(arg, width, height) :: r == Some((Decimal(width), Decimal(height)))
  {
    assert forall width, height | Matches(arg, width, height) :: Groups(arg) == Some((width, height)) by {
      forall width, height | Matches(arg, width, height) ensures Groups(arg) == Some((width, height)) {
        GroupsComplete(arg, width, height);
      }
    }
    match Groups(arg)
    case None => None
    case Some((width, height)) => Some((Decimal(width), Decimal(height)))
  }

  /** Any two digit runs around an `x`, with or without one final newline, are accepted with their decimal values. */
  lemma ParseSizeMatches(arg: string, width: string, height: string)
    requires Matches(arg, width, height)
    ensures ParseSize(arg) == Some((Decimal(width), Decimal(height)))
  {
    GroupsComplete(arg, width, height);
  }

  /** The last digit of `n`. */
  function DigitChar(n: nat): (c: char)
    requires n < 10
    ensures IsDigit(c) && c as int - '0' as int == n
  {
    ('0' as int + n) as char
  }

  /** `str(n)`: the decimal digits of `n`, without leading zeros. */
  function ToDecimal(n: nat): (s: string)
    ensures Digits(s) && Decimal(s) == n
    decreases n
  {
    if n < 10 then
      [DigitChar(n)]
    else
      var s := ToDecimal(n / 10) + [DigitChar(n % 10)];
      assert s[..|s| - 1] == ToDecimal(n / 10);
      s
  }

  /** `"%dx%d" % (width, height)`, the default `640x480` being one such string. */
  function Format(width: nat, height: nat): string {
    ToDecimal(width) + "x" + ToDecimal(height)
  }

  /** Formatting a size and parsing it back gives the size; so does the same with a trailing newline. */
  lemma ParseFormat(width: nat, height: nat)
    ensures ParseSize(Format(width, height)) == Some((width, height))
    ensures ParseSize(Format(width, height) + "\n") == Some((width, height))
  {
    ParseSizeMatches(Format(width, height), ToDecimal(width), ToDecimal(height));
    ParseSizeMatches(Format(width, height) + "\n", ToDecimal(width), ToDecimal(height));
  }

  /** The default size. */
  lemma AcceptDefault()
    ensures ParseSize("640x480") == Some((640, 480))
  {
    assert "640x480" == Format(640, 480) by {
      assert ToDecimal(64) == "64" by { assert ToDecimal(6) == "6"; }
      assert ToDecimal(640) == "640";
      assert ToDecimal(48) == "48" by { assert ToDecimal(4) == "4"; }
      assert ToDecimal(480) == "480";
    }
    ParseFormat(640, 480);
  }

  /** Leading zeros are accepted and ignored. */
  lemma AcceptLeadingZeros()
    ensures ParseSize("0640x0480") == Some((640, 480))
  {
    assert Decimal("0640") == 640 by {
      assert "0640"[..3] == "064" && "064"[..2] == "06" && "06"[..1] == "0" && "0"[..0] == "";
    }
    assert Decimal("0480") == 480 by {
      assert "0480"[..3] == "048" && "048"[..2] == "04" && "04"[..1] == "0" && "0"[..0] == "";
    }
    assert "0640x0480" == "0640" + "x" + "0480";
    ParseSizeMatches("0640x0480", "0640", "0480");
  }

  /** An upper-case separator is not the pattern's `x`. */
  lemma RejectUpperX()
    ensures ParseSize("640X480") == None
  {
    DigitRunStops("640X480", 3);
  }

  /** Nothing may precede the first digit run. */
  lemma RejectLeadingSpace()
    ensures ParseSize(" 640x480") == None
  {
    assert DigitRun(" 640x480") == 0;
  }

  /** `$` tolerates one final newline, not two. */
  lemma RejectTwoNewlines()
    ensures ParseSize("640x480\n\n") == None
  {
    var twice := "640x480\n\n";
    var body := "640x480\n";
    assert twice[..|twice| - 1] == body;
    DigitRunStops(body, 3);
    assert body[4..] == "480\n";
    assert !IsDigit(body[4..][3]);
  }
}

=== FILE: text.dfy ===
/**
 Byte-string helpers the protocol loop relies on: Python 2 `str.strip`, `str.split`
 (no separator), `str.upper` in the C locale, and a bounded `readline`.
 Bytes are modelled as `char`s; only the ASCII behaviour of those methods is modelled.
 */
module Text {
  import opened Seqs

  /** The characters Python 2 `str.split()` and `str.strip()` treat as whitespace. */
  predicate IsSpace(c: char) {
    c == ' ' || c == '\t' || c == '\n' || c == '\r' || c == '\U{B}' || c == '\U{C}'
  }

  predicate AllSpace(s: string) {
    forall i | 0 <= i < |s| :: IsSpace(s[i])
  }

  predicate NoSpace(s: string) {
    forall i | 0 <= i < |s| :: !IsSpace(s[i])
  }

  /** `s.lstrip()`: the suffix of `s` left after dropping its leading whitespace. */
  function StripLeft(s: string): (r: string)
    ensures |r| <= |s| && r == s[|s| - |r|..]
    ensures AllSpace(s[..|s| - |r|])
    ensures r == [] || !IsSpace(r[0])
    decreases |s|
  {
    if s != [] && IsSpace(s[0]) then
      var r := StripLeft(s[1..]);
      assert s[..|s| - |r|] == [s[0]] + s[1..][..|s[1..]| - |r|];
      r
    else
      s
  }

  /** `lstrip` leaves nothing exactly when the line is all whitespace. */
  lemma StripLeftBlank(s: string)
    ensures StripLeft(s) == [] <==> AllSpace(s)
  {
    var r := StripLeft(s);
    var k := |s| - |r|;
    if r == [] {
      assert s[..k] == s;
    } else {
      assert r[0] == s[k];
    }
  }

  /** `s.rstrip()`: the prefix of `s` left after dropping its trailing whitespace. */
  function StripRight(s: string): (r: string)
    ensures |r| <= |s| && r == s[..|r|]
    ensures AllSpace(s[|r|..])
    ensures r == [] || !IsSpace(r[|r| - 1])
    decreases |s|
  {
    if s != [] && IsSpace(s[|s| - 1]) then
      var r := StripRight(s[..|s| - 1]);
      assert s[|r|..] == s[..|s| - 1][|r|..] + [s[|s| - 1]];
      r
    else
      s
  }

  /** `s` is `r` with the whitespace `s[..k]` in front and only whitespace after. */
  predicate PaddedAt(s: string, k: int, r: string) {
    0 <= k <= |s| - |r| && r == s[k..k + |r|] && AllSpace(s[..k]) && AllSpace(s[k + |r|..])
  }

  /**
   `s.strip()`: the slice of `s` left after dropping whitespace at both ends. It is empty
   exactly when `s` is all whitespace, and otherwise starts and ends with non-whitespace.
   */
  function Strip(s: string): (r: string)
    ensures exists k :: PaddedAt(s, k, r)
    ensures r == [] <==> AllSpace(s)
    ensures r != [] ==> !IsSpace(r[0]) && !IsSpace(r[|r| - 1])
  {
    StripSlice(s);
    StripLeftBlank(s);
    StripEnds(StripLeft(s));
    StripRight(StripLeft(s))
  }

  /** Both strips together drop a whitespace prefix and a whitespace suffix. */
  lemma StripSlice(s: string)
    ensures PaddedAt(s, |s| - |StripLeft(s)|, StripRight(StripLeft(s)))
  {
    StripRightSlice(s, StripLeft(s));
  }

  /** Right-stripping a suffix `t` of `s` that follows only whitespace leaves a padded slice of `s`. */
  lemma StripRightSlice(s: string, t: string)
    requires |t| <= |s| && t == s[|s| - |t|..] && AllSpace(s[..|s| - |t|])
    ensures PaddedAt(s, |s| - |t|, StripRight(t))
  {
    Padded(s, |s| - |t|, t, StripRight(t));
  }

  /** Right-stripping a left-stripped line leaves nothing only when there was nothing, and keeps its first character otherwise. */
  lemma StripEnds(t: string)
    requires t == [] || !IsSpace(t[0])
    ensures var r := StripRight(t);
            && (r == [] <==> t == [])
            && (r != [] ==> !IsSpace(r[0]) && !IsSpace(r[|r| - 1]))
  {
    var r := StripRight(t);
    if r != [] {
      assert r[0] == t[0];
    }
  }

  /** Padding on the left of `t`, then padding on the right of `r` inside `t`, pads `r` inside `s`. */
  lemma Padded(s: string, k: nat, t: string, r: string)
    requires k <= |s| && t == s[k..] && AllSpace(s[..k])
    requires |r| <= |t| && r == t[..|r|] && AllSpace(t[|r|..])
    ensures PaddedAt(s, k, r)
  {
    assert t[|r|..] == s[k + |r|..];
  }

  /** Whitespace in front of a line that starts with non-whitespace is exactly what `lstrip` drops. */
  lemma {:induction false} StripLeftPadded(pre: string, t: string)
    requires AllSpace(pre) && (t == [] || !IsSpace(t[0]))
    ensures StripLeft(pre + t) == t
    decreases |pre|
  {
    if pre == [] {
      assert pre + t == t;
    } else {
      assert (pre + t)[0] == pre[0];
      assert (pre + t)[1..] == pre[1..] + t;
      assert AllSpace(pre[1..]) by {
        forall i | 0 <= i < |pre[1..]| ensures IsSpace(pre[1..][i]) { assert pre[1..][i] == pre[i + 1]; }
      }
      StripLeftPadded(pre[1..], t);
    }
  }

  /** Whitespace after a line that ends with non-whitespace is exactly what `rstrip` drops. */
  lemma StripRightPadded(t: string, post: string)
    requires AllSpace(post) && (t == [] || !IsSpace(t[|t| - 1]))
    ensures StripRight(t + post) == t
  {
    var s := t + post;
    var r := StripRight(s);
    assert r == s[..|t|];
  }

  /**
   Stripping is determined by the text between the padding: whatever whitespace surrounds a
   line that starts and ends with non-whitespace, `strip` returns exactly that line.
   */
  lemma StripPadded(pre: string, mid: string, post: string)
    requires AllSpace(pre) && AllSpace(post)
    requires mid == [] || (!IsSpace(mid[0]) && !IsSpace(mid[|mid| - 1]))
    ensures Strip(pre + mid + post) == mid
  {
    var s := pre + mid + post;
    if mid == [] {
      forall i | 0 <= i < |s| ensures IsSpace(s[i]) {
        if i >= |pre| { assert s[i] == post[i - |pre|]; }
      }
    } else {
      Associative(pre, mid, post);
      StripLeftPadded(pre, mid + post);
      StripRightPadded(mid, post);
    }
  }

  /** The longest whitespace-free prefix of `s`. */
  function Word(s: string): (w: string)
    ensures |w| <= |s| && w == s[..|w|]
    ensures NoSpace(w)
    ensures |w| == |s| || IsSpace(s[|w|])
    decreases |s|
  {
    if s == [] || IsSpace(s[0]) then [] else [s[0]] + Word(s[1..])
  }

  /** `s.split()`: the maximal runs of non-whitespace characters, in order. */
  function Split(s: string): (tokens: seq<string>)
    ensures forall i | 0 <= i < |tokens| :: tokens[i] != [] && NoSpace(tokens[i])
    ensures tokens == [] <==> AllSpace(s)
    decreases |s|
  {
    var t := StripLeft(s);
    assert t == [] <==> AllSpace(s) by { StripLeftBlank(s); }
    if t == [] then
      []
    else
      var w := Word(t);
      assert w != [] by { assert !IsSpace(t[0]); }
      var more := Split(t[|w|..]);
      var tokens := [w] + more;
      assert forall i | 0 <= i < |tokens| :: tokens[i] != [] && NoSpace(tokens[i]) by {
        forall i | 0 <= i < |tokens| ensures tokens[i] != [] && NoSpace(tokens[i]) {
          if i > 0 { assert tokens[i] == more[i - 1]; }
        }
      }
      tokens
  }

  /** `' '.join(tokens)`, the inverse of `Split` on well-formed tokens. */
  function Join(tokens: seq<string>): string
    decreases |tokens|
  {
    if tokens == [] then []
    else if |tokens| == 1 then tokens[0]
    else tokens[0] + " " + Join(tokens[1..])
  }

  lemma {:induction false} WordStopsAtSpace(w: string, rest: string)
    requires NoSpace(w)
    requires rest == [] || IsSpace(rest[0])
    ensures Word(w + rest) == w
    decreases |w|
  {
    if w == [] {
      assert w + rest == rest;
    } else {
      assert (w + rest)[1..] == w[1..] + rest;
      WordStopsAtSpace(w[1..], rest);
    }
  }

  lemma SplitSkipsSpace(c: char, s: string)
    requires IsSpace(c)
    ensures Split([c] + s) == Split(s)
  {
    assert ([c] + s)[1..] == s;
  }

  /** A line that starts with a whole word splits into that word followed by the rest's words. */
  lemma SplitWordFirst(w: string, rest: string)
    requires w != [] && NoSpace(w)
    requires rest == [] || IsSpace(rest[0])
    ensures Split(w + rest) == [w] + Split(rest)
  {
    var s := w + rest;
    assert !IsSpace(s[0]);
    assert StripLeft(s) == s;
    WordStopsAtSpace(w, rest);
    assert s[|w|..] == rest;
  }

  /** Leading whitespace does not change how a line splits. */
  lemma {:induction false} SplitSkipsSpaces(pre: string, t: string)
    requires AllSpace(pre)
    ensures Split(pre + t) == Split(t)
    decreases |pre|
  {
    if pre == [] {
      assert pre + t == t;
    } else {
      assert pre + t == [pre[0]] + (pre[1..] + t);
      SplitSkipsSpace(pre[0], pre[1..] + t);
      assert AllSpace(pre[1..]) by {
        forall i | 0 <= i < |pre[1..]| ensures IsSpace(pre[1..][i]) { assert pre[1..][i] == pre[i + 1]; }
      }
      SplitSkipsSpaces(pre[1..], t);
    }
  }

  /** Trailing whitespace does not change how a line splits. */
  lemma {:induction false} SplitDropsTrailing(t: string, post: string)
    requires AllSpace(post)
    ensures Split(t + post) == Split(t)
    decreases |t|
  {
    var u := StripLeft(t);
    SplitFromFirstWord(t, post);
    if u != [] {
      var w := Word(u);
      var rest := u[|w|..];
      SplitWordThenTrailing(u, post);
      SplitDropsTrailing(rest, post);
    }
  }

  /** Both `t` and `t + post` split as `StripLeft(t)` and `StripLeft(t) + post` do; with nothing left, both split to nothing. */
  lemma SplitFromFirstWord(t: string, post: string)
    requires AllSpace(post)
    ensures Split(t) == Split(StripLeft(t)) && Split(t + post) == Split(StripLeft(t) + post)
    ensures StripLeft(t) == [] ==> Split(t + post) == Split(t)
  {
    var u := StripLeft(t);
    var k := |t| - |u|;
    assert t == t[..k] + u;
    Associative(t[..k], u, post);
    SplitSkipsSpaces(t[..k], u);
    SplitSkipsSpaces(t[..k], u + post);
    if u == [] {
      assert u + post == post;
    }
  }

  /** A line that starts with a word splits into that word and the rest's words, with or without trailing whitespace. */
  lemma SplitWordThenTrailing(u: string, post: string)
    requires u != [] && !IsSpace(u[0]) && AllSpace(post)
    ensures Word(u) != [] && |Word(u)| <= |u|
    ensures Split(u) == [Word(u)] + Split(u[|Word(u)|..])
    ensures Split(u + post) == [Word(u)] + Split(u[|Word(u)|..] + post)
  {
    var w := Word(u);
    var rest := u[|w|..];
    WordSplitsOff(u);
    SplitWordFirst(w, rest);
    WordThenTrailing(w, rest, post);
    SplitWordFirst(w, rest + post);
  }

  /** The first word of a line that starts with non-whitespace is non-empty and ends at whitespace or the end. */
  lemma WordSplitsOff(u: string)
    requires u != [] && !IsSpace(u[0])
    ensures Word(u) != [] && u == Word(u) + u[|Word(u)|..]
    ensures u[|Word(u)|..] == [] || IsSpace(u[|Word(u)|..][0])
  {
    var w := Word(u);
    assert w != [] by { assert !IsSpace(u[0]); }
    assert u == u[..|w|] + u[|w|..];
    assert |w| < |u| ==> u[|w|..][0] == u[|w|];
  }

  lemma WordThenTrailing(w: string, rest: string, post: string)
    requires AllSpace(post) && (rest == [] || IsSpace(rest[0]))
    ensures (w + rest) + post == w + (rest + post)
    ensures rest + post == [] || IsSpace((rest + post)[0])
  {
    Associative(w, rest, post);
  }


  /** `strip` before `split` changes nothing: the words of a line are the words of its stripped form. */
  lemma SplitStrip(s: string)
    ensures Split(Strip(s)) == Split(s)
  {
    var t := StripLeft(s);
    SplitSuffix(s, t);
    SplitPrefix(t, StripRight(t));
  }

  /** Dropping leading whitespace does not change the split. */
  lemma SplitSuffix(s: string, t: string)
    requires |t| <= |s| && t == s[|s| - |t|..] && AllSpace(s[..|s| - |t|])
    ensures Split(t) == Split(s)
  {
    assert s == s[..|s| - |t|] + t;
    SplitSkipsSpaces(s[..|s| - |t|], t);
  }

  /** Dropping trailing whitespace does not change the split. */
  lemma SplitPrefix(t: string, r: string)
    requires |r| <= |t| && r == t[..|r|] && AllSpace(t[|r|..])
    ensures Split(r) == Split(t)
  {
    assert t == r + t[|r|..];
    SplitDropsTrailing(r, t[|r|..]);
  }

  /** Words joined by single spaces: each word is non-empty and free of whitespace. */
  predicate Words(tokens: seq<string>) {
    forall i | 0 <= i < |tokens| :: tokens[i] != [] && NoSpace(tokens[i])
  }

  /** Splitting a joined line of two or more words gives its first word, then the split of the others' join. */
  lemma SplitJoinCons(tokens: seq<string>)
    requires |tokens| >= 2 && tokens[0] != [] && NoSpace(tokens[0])
    ensures Split(Join(tokens)) == [tokens[0]] + Split(Join(tokens[1..]))
  {
    var j := Join(tokens[1..]);
    assert Join(tokens) == tokens[0] + ([' '] + j);
    SplitWordFirst(tokens[0], [' '] + j);
    SplitSkipsSpace(' ', j);
  }

  lemma WordsTail(tokens: seq<string>)
    requires tokens != [] && Words(tokens)
    ensures Words(tokens[1..])
  {
    forall i | 0 <= i < |tokens[1..]| ensures tokens[1..][i] != [] && NoSpace(tokens[1..][i]) {
      assert tokens[1..][i] == tokens[i + 1];
    }
  }

  /** Splitting single-space-joined tokens gives the tokens back. */
  lemma {:induction false} SplitJoin(tokens: seq<string>)
    requires Words(tokens)
    ensures Split(Join(tokens)) == tokens
    decreases |tokens|
  {
    if tokens == [] {
    } else if |tokens| == 1 {
      var t := tokens[0];
      SplitWordFirst(t, []);
      assert t + [] == t;
      assert Split([]) == [];
      HeadTail(tokens);
    } else {
      SplitJoinCons(tokens);
      WordsTail(tokens);
      SplitJoin(tokens[1..]);
      HeadTail(tokens);
    }
  }

  /**
   Whitespace runs that can separate `|gaps| - 1` words: all whitespace, and non-empty
   between two words; the first and the last may be empty.
   */
  predicate Gaps(gaps: seq<string>) {
    forall i | 0 <= i < |gaps| :: AllSpace(gaps[i]) && (0 < i < |gaps| - 1 ==> gaps[i] != [])
  }

  /** `gaps[0] + words[0] + gaps[1] + ... + words[n-1] + gaps[n]`: words laid out with arbitrary whitespace. */
  function Layout(gaps: seq<string>, words: seq<string>): string
    requires |gaps| == |words| + 1
    decreases |words|
  {
    if words == [] then gaps[0] else gaps[0] + words[0] + Layout(gaps[1..], words[1..])
  }

  lemma GapsTail(gaps: seq<string>)
    requires gaps != [] && Gaps(gaps)
    ensures Gaps(gaps[1..])
  {
    forall i | 0 <= i < |gaps[1..]| ensures AllSpace(gaps[1..][i]) && (0 < i < |gaps[1..]| - 1 ==> gaps[1..][i] != []) {
      assert gaps[1..][i] == gaps[i + 1];
    }
  }

  /** However whitespace separates and surrounds the words of a line, `split` returns exactly those words. */
  lemma {:induction false} SplitLayout(gaps: seq<string>, words: seq<string>)
    requires |gaps| == |words| + 1 && Gaps(gaps) && Words(words)
    ensures Split(Layout(gaps, words)) == words
    decreases |words|
  {
    if words == [] {
      assert AllSpace(gaps[0]);
    } else {
      var rest := Layout(gaps[1..], words[1..]);
      Associative(gaps[0], words[0], rest);
      SplitSkipsSpaces(gaps[0], words[0] + rest);
      if words[1..] == [] {
        assert rest == gaps[1];
      } else {
        assert rest == gaps[1..][0] + words[1..][0] + Layout(gaps[2..], words[2..]) by {
          assert gaps[1..][1..] == gaps[2..];
          assert words[1..][1..] == words[2..];
        }
        assert gaps[1] != [];
        assert rest[0] == gaps[1][0];
      }
      assert rest == [] || IsSpace(rest[0]);
      SplitWordFirst(words[0], rest);
      GapsTail(gaps);
      WordsTail(words);
      SplitLayout(gaps[1..], words[1..]);
      HeadTail(words);
    }
  }

  /** A lower-case ASCII letter becomes upper case; every other byte is kept. */
  function UpperChar(c: char): char {
    if 'a' <= c <= 'z' then (c as int - 32) as char else c
  }

  /** `s.upper()` in the C locale. */
  function Upper(s: string): (r: string)
    ensures |r| == |s|
    ensures forall i | 0 <= i < |s| :: r[i] == UpperChar(s[i])
  {
    seq(|s|, i requires 0 <= i < |s| => UpperChar(s[i]))
  }

  /**
   `readline(limit)` on a buffered stream: the bytes up to and including the first
   newline, or the first `limit` bytes, or everything left, whichever is shortest.
   At end of stream it returns the empty string.
   */
  function ReadLine(stream: string, limit: nat): (r: (string, string))
    ensures r.0 + r.1 == stream
    ensures |r.0| <= limit
    ensures forall i | 0 <= i < |r.0| - 1 :: r.0[i] != '\n'
    ensures |r.0| == limit || r.1 == [] || (r.0 != [] && r.0[|r.0| - 1] == '\n')
    ensures stream != [] && limit > 0 ==> r.0 != []
    decreases limit
  {
    if stream == [] || limit == 0 then
      ([], stream)
    else if stream[0] == '\n' then
      ([stream[0]], stream[1..])
    else
      var (line, rest) := ReadLine(stream[1..], limit - 1);
      var r0 := [stream[0]] + line;
      assert r0 + rest == [stream[0]] + (line + rest);
      assert forall i | 1 <= i < |r0| :: r0[i] == line[i - 1];
      (r0, rest)
  }
}
